=== FILE: README.md ===
# gh-hits-badge: a Dafny model of the counter core

gh-hits-badge is a small HTTP service that counts hits per GitHub
(user, repo) pair and serves the count as an SVG badge and as JSON. This
project models the logic of `app.go` and proves properties about it:

- **The counter store.** The SQLite `counts` table becomes a finite map from
  `Key(user, repo)` to `nat`. `incrCount` and `getCount` are pure functions
  over that map (`store.dfy`). A failing SQL statement is an input of the
  call (`Fault`), and the error comes back as a `Result`.
- **The two ordered scans.** `getRepoCounts(user)` and `getUserRepoCounts()`
  are methods that sort the stored keys (`queries.dfy`, `sorting.dfy`).
  - SQLite's BINARY collation compares UTF-8 bytes. That is the same as
    code-point order, so it is modelled as lexicographic order on characters
    (`ordering.dfy`).
  - Each scan is specified by a predicate saying what a correct answer is.
    A uniqueness lemma shows that the predicate admits exactly one answer.
- **The JSON bodies.** Each body is a sequence of write pieces (`Chunk`s),
  rendered by concatenation (`bodies.dfy`). This covers
  `serveUserRepoStats`, `serveUserStats` and `serveStats`.
  - The `serveStats` loop compares each row's user with the previous one.
    That is related to a first-class grouping of the rows by user
    (`grouping.dfy`).
- **The badge geometry.** `createSVG` computes four values from the decimal
  length of the count (`badge.dfy`, `decimal.dfy`).
- **The route pattern.** The character class on `{user}` and `{repo}` is
  modelled in `routes.dfy`.
- **Worked cases.** `scenarios.dfy` proves what the model yields on concrete
  tables.

The route pattern on `{user}` and `{repo}` (app.go:123-129) is
`[A-ZA-z0-9_.-]+`. Its second range `A-z` also admits `[`, `\`, `]`, `^`
and the backtick. The model follows the code: the store invariant
`CounterStore.ValidStore` and the body lemmas are stated for this class, which
still admits no brace (`Routes.AsWrittenIsBraceFree`). The first range already
covers the capitals, so `a-z` was evidently meant. That matters because the
names are copied into JSON strings unescaped; it is the second finding below.

## Model

| member | source | states |
|---|---|---|
| CounterStore.GetCount | app.go:143-155 | A failing SELECT returns its error. Otherwise a missing row reads as 0 and a present row reads as its stored count. A write fault has no effect, since the read issues no write. The fault-free read is `Count`, the read the store lemmas are stated with. |
| CounterStore.IncrCount | app.go:220-241 | Without a fault, the result is the previous count (0 for a missing row) plus 1, and the row holds that value afterwards. The key set gains only this key, and every other row keeps its count. On a failing SELECT, INSERT or UPDATE, the store is unchanged and the error is returned. |
| CounterStore.IncrIsolation | app.go:227-234 | Incrementing one key leaves the count read for every other key unchanged, with or without a fault. |
| CounterStore.IncrMonotonic | app.go:220-241 | An increment never removes a row and never lowers a count. |
| CounterStore.IncrTimesCount | app.go:233-240 | n fault-free increments from any store raise the key's count by exactly n and leave every other key's count as it was (no lost updates in sequence). |
| CounterStore.IncrFromFresh | app.go:225-240 | From a key never seen, n increments make `getCount` return n. |
| CounterStore.ValidStore | app.go:220-241 | The table invariant: every row has a count of at least 1, since `incrCount` inserts 1 and only adds to it, and both names match the route pattern as written. It has no contract of its own: `CounterStore.IncrKeepsValid` shows that every call keeps it, and `Bodies.StatsBodyOfStore` relies on it. |
| CounterStore.IncrKeepsValid | app.go:220-241 | Every row holds a count of at least 1 under names the route pattern as written lets through. This holds for the empty table and survives every increment, faulty or not, made with such names. |
| Sorting.SortKeys | app.go:194 | The sort yields a strictly ascending (user, repo) sequence holding exactly the given keys. |
| Sorting.SortedUnique | app.go:133 | Two strictly ascending key sequences with the same elements are equal, so the ORDER BY over the primary key fixes the order. |
| Queries.Breaks | app.go:176-190 | Whether the row loop over a result of `total` rows stops early: a read error is due and falls within the rows. No contract of its own; `Queries.Delivered` and the scans state its effect. |
| Queries.Delivered | app.go:176-190 | The number of rows the loop sees before `rows.Next()` returns false is at most the result's size, and smaller than it exactly when the loop breaks off. |
| Ordering.Less | app.go:194 | The `ORDER BY` comparison of both queries (`ORDER BY repo` at app.go:169 too): order by character code, which for UTF-8 text is the byte-wise order of SQLite's BINARY collation; a proper prefix comes first. No contract of its own; the three lemmas below make it a strict total order. |
| Ordering.LessIrreflexive | app.go:194 | No name comes before itself. |
| Ordering.LessTransitive | app.go:194 | The order is transitive. |
| Ordering.LessTotal | app.go:194 | Of two different names, one comes before the other. |
| Queries.RepoCounts | app.go:168-191 | A failing query returns its error. Otherwise the call succeeds, even when the row loop breaks off, and returns a prefix of the user's listing as long as the rows delivered. When the loop runs to the end, the result is the whole listing: the user's stored repos, each once with its count, in strictly ascending repo order. |
| Queries.RepoCountsChecked | app.go:176-190 | With the missing `rows.Err()` check added, a row loop that breaks off before the user's last row returns its error. A read error due only after more rows than the user has never arises, so that scan succeeds. A successful answer is always the whole listing, and the call succeeds exactly when neither the query nor the loop fails. |
| Queries.UserRepoCounts | app.go:193-218 | A failing query returns its error. Otherwise the call succeeds, even when the row loop breaks off, and returns a prefix of the full listing as long as the rows delivered. When the loop runs to the end, every stored row appears exactly once, in strictly ascending (user, repo) order, with its count. |
| Queries.UserRepoCountsChecked | app.go:201-217 | With the `rows.Err()` check added, a row loop that breaks off before the table's last row returns its error; one due after more rows than the table holds never arises. A successful answer is always the whole listing, and the call succeeds exactly when neither the query nor the loop fails. |
| Queries.RepoListingUnique | app.go:169 | Any two correct answers to the per-user scan are equal. |
| Queries.FullListingUnique | app.go:194 | Any two correct answers to the full scan are equal. |
| Queries.RepoListingLength | app.go:169 | A per-user listing has exactly one row per stored repo of that user. |
| Queries.FullListingLength | app.go:194 | The full listing has exactly one row per stored entry. |
| Queries.UnknownUserEmpty | app.go:175-190 | A user with no stored row gets the empty listing, not an error. |
| Queries.UserBlocksOrdered | app.go:194 | In the full listing, every row of a smaller user comes before every row of a larger user. |
| Grouping.GroupByUser | app.go:101-113 | Cutting rows into runs of one user gives back exactly the rows. No run is empty, and neighbouring runs have different users. |
| Grouping.GroupsOfListing | app.go:99-118 | On the full scan, the runs have strictly ascending (hence distinct) users. Each run is exactly its user's per-user listing, and every stored user has a run. |
| Bodies.Text | app.go:79-87 | The text each write produces: `{` for the outer opening; newline, two spaces, `"`, the user, `": {` for a user's opening; newline, four spaces, `"`, the repo, `": ` and the count in `%d` form for an entry line; `,` for the comma; newline, two spaces, `}` for a user's closing; newline, `}` for the outer closing. No contract of its own; `Bodies.EntriesShape` and the brace-count lemmas state what the texts contribute. |
| Bodies.Entries | app.go:80-86 | The entry lines of one listing: the first row's line without a comma, then the rest. No contract of its own; `Bodies.EntriesShape` states the result. |
| Bodies.MoreEntries | app.go:84-85 | The rows after the first, each as a comma followed by its entry line, as the `i != 0` branch writes them. `Bodies.MoreEntriesShape` states the result. |
| Bodies.MoreEntriesShape | app.go:84-85 | Every row after the first contributes exactly a comma and its own entry line, in the listing's order. |
| Bodies.UserRepoStatsBodyFields | app.go:64 | The `serveUserRepoStats` body gives back its inputs: it is 17 characters longer than the user, the repo and the count's digits together, the user and the repo stand at fixed offsets, and the text between the repo's `": ` and the four closing characters parses back to the count. |
| Bodies.UserRepoStatsBody | app.go:64 | The single write of `serveUserRepoStats`: `{"`, the user, `": {` with a newline and two spaces, `"`, the repo, `": `, the count in `%d` form, then a newline, `}`, another newline and `}`. No contract of its own; `Bodies.UserRepoStatsBodyBalanced` states its brace count. |
| Bodies.UserStatsChunks | app.go:79-87 | The writes of `serveUserStats`: `{`, the user's opening, the comma-separated entry lines of the listing, then the user's closing and the outer closing. No contract of its own; `Bodies.EntriesShape` fixes the entry lines, and `Bodies.UserStatsBodyIsOneGroup` equates the result with the one-user grouped view. |
| Bodies.UserStatsBody | app.go:79-87 | The text of those writes, concatenated in order. Its properties are stated by `Bodies.UserStatsBodyIsOneGroup`. |
| Bodies.Piece | app.go:102-112 | One loop iteration of `serveStats`. The first row opens its user and writes its entry line. A row of the previous user writes a comma and its line. A row of a new user writes the separator, the new user's opening and the line: the separator is a comma as written and a closing plus a comma when corrected. Its properties are stated by `Bodies.PiecesAreRuns`. |
| Bodies.Pieces | app.go:101-113 | The whole loop, with `last_user` carried from row to row. `Bodies.PiecesAreRuns` equates it with the runs of `Grouping.GroupByUser`. |
| Bodies.StatsChunks | app.go:99-118 | All writes of `serveStats`: `{`, the loop, then the user closing and `}` when `last_user` is not empty, or `}` alone otherwise. Its brace counts are stated by `Bodies.StatsChunksCounts`. |
| Bodies.StatsBodyAsWritten | app.go:99-118 | `serveStats` as written, with a bare comma between users. No contract of its own; `Bodies.StatsBodyAsWrittenUnbalanced` and `Bodies.StatsBodyAsWrittenCounterexample` state that its braces do not balance. |
| Bodies.StatsBody | app.go:99-118 | `serveStats` corrected so that each user's object is closed before the next opens. No contract of its own; `Bodies.StatsChunksAreGrouped`, `Bodies.StatsBodyBalanced` and `Bodies.StatsBodyOfStore` state its shape and balance. |
| Bodies.EntriesShape | app.go:80-86 | The entry lines are the listing's rows in order. A comma comes before every line except the first, and no other comma appears. |
| Bodies.UserStatsBodyIsOneGroup | app.go:79-87 | The `serveUserStats` body equals the grouped `serveStats` view of a single user's run. |
| Bodies.UserRepoStatsBodyBalanced | app.go:64 | With brace-free names, the `serveUserRepoStats` body has exactly two `{` and two `}`. |
| Bodies.PiecesAreRuns | app.go:101-113 | What the loop writes, entered in any state, equals the runs of the rows: a run continues the previous user's object or opens a new one after the separator. |
| Bodies.StatsBodyEmpty | app.go:99-118 | With no rows, the body is `{` newline `}`, in the code as written and in the corrected version. |
| Bodies.StatsChunksAreGrouped | app.go:99-118 | When a change of user closes the previous object, the body is the grouped view: one closed object per run, separated by commas, inside the outer object. |
| Bodies.StatsBodyBalanced | app.go:99-118 | With brace-free names, the corrected body has as many `}` as `{`. |
| Bodies.StatsBodyOfStore | app.go:91-118 | On the full scan of a valid table, the corrected body is the grouped view. It has one object per stored user in ascending order, each holding exactly that user's repos in ascending order, and its braces balance. |
| Bodies.StatsBodyAsWrittenUnbalanced | app.go:108-112 | As written, a body with n users has n + 1 `{` and only 2 `}`. |
| Bodies.StatsBodyAsWrittenCounterexample | app.go:108-112 | Rows alice/proj/1 and bob/proj/2 give an as-written body with three `{` and two `}`. |
| Decimal.Format | app.go:255 | The `%d` text of a non-negative count: non-empty, all decimal digits, and starting with `0` only for the count 0. `Decimal.ParseFormat` shows it reads back as the count. |
| Decimal.ParseFormat | app.go:255 | Reading the `%d` text of a count back gives the count. |
| Decimal.FormatLonger | app.go:255-256 | For every k ≥ 1, the decimal text has more than k digits exactly when the count is at least 10^k. |
| Badge.CreateSvg | app.go:255-264 | The text is the count in decimal. The width is the count box plus the 30-wide label, and the text is centred in the count box. The box is never narrower than 50. The widening adds `6 * (length - 5)`, which is zero at five digits, so all three values keep their defaults 80/50/55 exactly when the count is below 100000, five digits included. |
| Badge.CreateSvgGrowth | app.go:260-264 | From five digits on, one more digit widens the badge and the box by 6 and moves the text by 3. |
| Badge.CreateSvgMonotonic | app.go:255-264 | A larger count never gives a narrower badge. |
| Routes.ValidSegmentAsWritten | app.go:123-129 | A path segment the route pattern `[A-ZA-z0-9_.-]+` accepts: non-empty, and every character is in `A`–`Z`, `A`–`z`, `0`–`9`, `_`, `.` or `-`. No contract of its own; `Routes.AsWrittenIsBraceFree` and `Routes.AsWrittenAdmitsBackslash` state what it lets through. |
| Routes.AsWrittenAdmitsBackslash | app.go:123-129 | The written class accepts the name `\`, which cannot stand unescaped inside a JSON string. |
| Routes.ValidSegmentIsJsonSafe | app.go:123-129 | Every name of the intended class `[A-Za-z0-9_.-]+` is non-empty, JSON-safe and brace-free. |
| Routes.AsWrittenIsBraceFree | app.go:123-129 | Even the written class admits no brace. |
| Scenarios.FirstWrite | app.go:220-241 | On a fresh table the first hit returns 1, and a read before it returns 0. |
| Scenarios.OctoThreeHits | app.go:220-241 | Three hits on ("octo", "hello-world") read back as 3; the third hit returns 3 and its badge shows "3" at default size. |
| Scenarios.BobOrdering | app.go:168-191 | Repos hit in the order zeta, alpha, mid are listed as alpha, mid, zeta. |
| Scenarios.NobodyListing | app.go:168-191 | An unknown user's listing is empty, not an error. |
| Scenarios.GlobalOrdering | app.go:193-218 | With hits on bob/x and then alice/y, the full listing is alice's row, then bob's. |
| Scenarios.EmptyGlobalListing | app.go:193-218 | The full listing of the empty table is empty. |
| Scenarios.BrokenBobListing | app.go:176-190 | When the row loop breaks off after one row, the code answers with success and only `alpha`, although `mid` and `zeta` are stored for bob. |
| Scenarios.CheckedBobListing | app.go:176-190 | With the `rows.Err()` check, the same broken loop returns its error. |
| Scenarios.CheckedShortScan | app.go:201-217 | A read error due only after the fifth row never arises on a two-row table, so even with the `rows.Err()` check the full scan succeeds with both rows. |
| Scenarios.BrokenGlobalListing | app.go:201-217 | A full scan that breaks off after one row answers with success and only alice's row, although bob's row is stored. |

## Left out

- The SQLite driver (`sql.Open`, `Prepare`, `Exec`, `QueryRow`, `Query`, `Scan`) is replaced by the map. A failing statement is the `Fault` input, a row loop that breaks off is the `Iteration` input, and an `INSERT`/`UPDATE` is taken to apply in full or not at all.
- The concurrency of `incrCount`. Its SELECT and its INSERT/UPDATE are separate, unguarded statements and race under parallel requests. The model is sequential, and "no lost updates" is proved only for increments in sequence.
- HTTP routing, response headers and status codes. The route pattern is modelled only as a predicate on names.
- The error bodies (`{"error": ...}`) and the malformed error JSON of `serveSVG` (app.go:43), which embeds the error unquoted.
- The `panic` and `log.Fatal` paths (app.go:25, app.go:135-139, app.go:182, app.go:208) and `log.Printf`.
- The literal SVG template of `createSVG`, including its fixed `width="80"` overlay rectangle. Only the four substituted values are modelled.
- `main.go`: flag parsing and process start-up, which have no logic of their own.
- CounterStore.IncrCount: counts are unbounded `nat`, so the 64-bit SQLite `INTEGER` and Go `int` limit is not modelled.
- Badge.CreateSvg: takes a `nat` count. Its only caller passes a successful `incrCount` result, which is at least 1, so the `-` sign of a negative count is not modelled.
- Bodies.StatsChunksAreGrouped: requires a non-empty last user when there are rows, and so do the brace-count lemmas. Names come from non-empty route segments, so such a row cannot be stored. `StatsChunks` still models the code's `last_user != ""` test, which would drop the last user's closing for an empty name.

## Findings

| source | as written | input that shows it | evidently intended | confidence | as-written member | corrected member |
|---|---|---|---|---|---|---|
| app.go:108-112 | On a change of user, `serveStats` writes `,` and the next user's opening without closing the previous user's object. | Rows (alice, proj, 1) and (bob, proj, 2): the body opens three objects and closes two. | Write the previous user's closing `\n  }` before the comma, so that every user object is closed. | high; not executed | Bodies.StatsBodyAsWrittenCounterexample | Bodies.StatsBodyOfStore |
| app.go:123-129 | The segment class `[A-ZA-z0-9_.-]` accepts `[`, `\`, `]`, `^` and the backtick, because `A-z` spans them. | The user name `\` is routed and copied unescaped into a JSON string, which it breaks. | `[A-Za-z0-9_.-]`: the first range already covers the capitals, so the second was meant to be `a-z`. | high; not executed | Routes.AsWrittenAdmitsBackslash | Routes.ValidSegmentIsJsonSafe |
| app.go:176-190 | `getRepoCounts` never asks `rows.Err()` after its loop, so a loop that `rows.Next()` ends early with an error still returns success. | The loop breaks off after one of bob's three rows: the answer is success with only `alpha`. | Check `rows.Err()` after the loop and return its error, so that a successful answer holds every row. | medium; not executed | Scenarios.BrokenBobListing | Queries.RepoCountsChecked |
| app.go:201-217 | `getUserRepoCounts` has the same missing `rows.Err()` check. | Rows bob/x and alice/y, with the loop breaking off after one row: the answer is success with only alice's row. | Check `rows.Err()` after the loop. | medium; not executed | Scenarios.BrokenGlobalListing | Queries.UserRepoCountsChecked |

=== FILE: badge.dfy ===
/**
 The numbers `createSVG` substitutes into its fixed SVG template: the count's
 text, the total width, the width of the green count box, and the x position
 of the count's text. The template's literal markup is not modelled.
 */
module Badge {
  import Decimal

  /** The four values substituted for `{count}`, `{width}`, `{recWidth}` and `{textX}`. */
  datatype Badge = Badge(text: string, width: int, recWidth: int, textX: int)

  /** The grey "hits" box is 30 wide; the defaults fit five digits. */
  const LabelWidth := 30
  const DefaultWidth := 80
  const DefaultRecWidth := 50
  const DefaultTextX := 55

  /**
   `createSVG(count)`: the count box follows the label box and the count's text
   is centred in it. The widening starts at five digits but adds 6 * (length - 5),
   which is zero at five digits, so the defaults hold up to five digits and each
   digit beyond the fifth widens the badge.
   */
  function CreateSvg(count: nat): (b: Badge)
    ensures b.text == Decimal.Format(count)
    ensures b.width == b.recWidth + LabelWidth
    ensures b.textX == LabelWidth + b.recWidth / 2
    ensures b.recWidth >= DefaultRecWidth
    ensures count < 100000 <==> b == Badge(b.text, DefaultWidth, DefaultRecWidth, DefaultTextX)
  {
    var text := Decimal.Format(count);
    var length := |text|;
    Decimal.FormatLonger(count, 5);
    if length >= 5 then
      Badge(text, DefaultWidth + 6 * (length - 5), DefaultRecWidth + 6 * (length - 5), DefaultTextX + 3 * (length - 5))
    else
      Badge(text, DefaultWidth, DefaultRecWidth, DefaultTextX)
  }

  /** From five digits on, each further digit widens the badge and the box by 6 and moves the text by 3. */
  lemma {:induction false} CreateSvgGrowth(m: nat, n: nat)
    requires |Decimal.Format(n)| == |Decimal.Format(m)| + 1
    requires m >= 10000
    ensures CreateSvg(n).width == CreateSvg(m).width + 6
    ensures CreateSvg(n).recWidth == CreateSvg(m).recWidth + 6
    ensures CreateSvg(n).textX == CreateSvg(m).textX + 3
  {
    Decimal.FormatAtLeastFive(m);
  }

  /** A larger count never gives a narrower badge. */
  lemma CreateSvgMonotonic(m: nat, n: nat)
    requires m <= n
    ensures CreateSvg(m).width <= CreateSvg(n).width
  {
    var k := |Decimal.Format(m)|;
    if k > 1 {
      Decimal.FormatLonger(m, k - 1);
      Decimal.FormatLonger(n, k - 1);
    }
  }
}

=== FILE: bodies.dfy ===
/**
 The JSON bodies the three stats handlers write on success.

 A handler builds its body by a series of writes of small fixed shapes: the
 outer `{`, a user object's opening, one repo's line, a comma, a user object's
 closing, the outer `}`. A body is modelled as the sequence of those pieces
 (`Chunk`s) and rendered to text by concatenation, so the structure of a body
 can be reasoned about without looking at characters.

 `serveStats` writes, per row, either the opening of a new user object and the
 entry, or a comma and the entry when the row's user is the previous row's.
 When the user changes, the code as written writes a comma and the next user's
 opening but never the closing of the previous user's object, so a body with
 two or more users has more `{` than `}`. `StatsBodyAsWritten` is that code;
 `StatsBody` closes the object first and is proved to be the rendering of the
 rows grouped by user.
 */
module Bodies {
  import opened CounterStore
  import opened Queries
  import opened Grouping
  import opened Routes
  import Decimal
  import opened Seqs

  /** The pieces a body is written in. */
  datatype Chunk =
    | ObjOpen                // {
    | UserOpen(user: string) // \n  "<user>": {
    | Line(e: RepoCount)     // \n    "<repo>": <count>
    | Comma                  // ,
    | UserClose              // \n  }
    | ObjClose               // \n}

  function Text(c: Chunk): string
  {
    match c
    case ObjOpen => "{"
    case UserOpen(user) => "\n  \"" + user + "\": {"
    case Line(e) => "\n    \"" + e.repo + "\": " + Decimal.Format(e.count)
    case Comma => ","
    case UserClose => "\n  }"
    case ObjClose => "\n}"
  }

  /** The text of a sequence of chunks. */
  function Render(cs: seq<Chunk>): string
  {
    if cs == [] then "" else Text(cs[0]) + Render(cs[1..])
  }

  /** Comma-separated entry lines: the first without a comma, each later one after one. */
  function Entries(es: seq<RepoCount>): seq<Chunk>
  {
    if es == [] then [] else [Line(es[0])] + MoreEntries(es[1..])
  }

  function MoreEntries(es: seq<RepoCount>): seq<Chunk>
  {
    if es == [] then [] else [Comma, Line(es[0])] + MoreEntries(es[1..])
  }

  /** After the first entry, every entry line is preceded by exactly one comma. */
  lemma {:induction false} MoreEntriesShape(es: seq<RepoCount>)
    ensures |MoreEntries(es)| == 2 * |es|
    ensures forall i :: 0 <= i < |es| ==> MoreEntries(es)[2 * i] == Comma && MoreEntries(es)[2 * i + 1] == Line(es[i])
    decreases |es|
  {
    if es != [] {
      MoreEntriesShape(es[1..]);
      var m := MoreEntries(es);
      assert m == [Comma, Line(es[0])] + MoreEntries(es[1..]);
      forall i | 1 <= i < |es|
        ensures m[2 * i] == Comma && m[2 * i + 1] == Line(es[i])
      {
        assert es[1..][i - 1] == es[i];
      }
    }
  }

  lemma EntriesAt(es: seq<RepoCount>, i: nat)
    requires 1 <= i < |es|
    ensures |Entries(es)| == 2 * |es| - 1
    ensures Entries(es)[2 * i - 1] == Comma && Entries(es)[2 * i] == Line(es[i])
  {
    var rest, j := es[1..], i - 1;
    var m := MoreEntries(rest);
    MoreEntriesShape(rest);
    assert Entries(es) == [Line(es[0])] + m;
    assert rest[j] == es[i];
    assert m[2 * j] == Comma && m[2 * j + 1] == Line(rest[j]);
  }

  /** The entries of a listing: its lines in order, with a comma between neighbours and none in front. */
  lemma EntriesShape(es: seq<RepoCount>)
    requires es != []
    ensures |Entries(es)| == 2 * |es| - 1
    ensures Entries(es)[0] == Line(es[0])
    ensures forall i :: 1 <= i < |es| ==> Entries(es)[2 * i - 1] == Comma && Entries(es)[2 * i] == Line(es[i])
  {
    MoreEntriesShape(es[1..]);
    forall i | 1 <= i < |es|
      ensures Entries(es)[2 * i - 1] == Comma && Entries(es)[2 * i] == Line(es[i])
    {
      EntriesAt(es, i);
    }
  }

  // ---------------------------------------------------------------------------
  // serveUserRepoStats and serveUserStats

  /** `serveUserRepoStats`: one user object holding one repo and its count (a single write). */
  function UserRepoStatsBody(user: string, repo: string, count: nat): string
  {
    "{\"" + user + "\": {\n  \"" + repo + "\": " + Decimal.Format(count) + "\n}\n}"
  }

  /** `serveUserStats`: the user's object with the listing's lines inside. */
  function UserStatsChunks(user: string, rows: seq<RepoCount>): seq<Chunk>
  {
    [ObjOpen, UserOpen(user)] + Entries(rows) + [UserClose, ObjClose]
  }

  function UserStatsBody(user: string, rows: seq<RepoCount>): string
  {
    Render(UserStatsChunks(user, rows))
  }

  // ---------------------------------------------------------------------------
  // serveStats

  /** The loop state before a row: the first row, or the previous row's user (`last_user`). */
  datatype Prev = First | After(user: string)

  /**
   What one loop iteration writes. `groupSep` is what is written before the
   opening of a user that differs from the previous row's.
   */
  function Piece(prev: Prev, row: UserRepoCount, groupSep: seq<Chunk>): seq<Chunk>
  {
    match prev
    case First => [UserOpen(row.user), Line(Entry(row))]
    case After(last) =>
      if row.user == last then [Comma, Line(Entry(row))]
      else groupSep + [UserOpen(row.user), Line(Entry(row))]
  }

  /** What the loop writes for `rows`, entered in state `prev`. */
  function Pieces(rows: seq<UserRepoCount>, prev: Prev, groupSep: seq<Chunk>): seq<Chunk>
    decreases |rows|
  {
    if rows == [] then [] else Piece(prev, rows[0], groupSep) + Pieces(rows[1..], After(rows[0].user), groupSep)
  }

  /** `last_user` after the loop: "" when there were no rows, else the last row's user. */
  function LastUser(rows: seq<UserRepoCount>): string
  {
    if rows == [] then "" else rows[|rows| - 1].user
  }

  /** The writes of `serveStats` for a given separator: `{`, the loop, then the closing chosen by `last_user`. */
  function StatsChunks(rows: seq<UserRepoCount>, groupSep: seq<Chunk>): seq<Chunk>
  {
    [ObjOpen] + Pieces(rows, First, groupSep) + (if LastUser(rows) != "" then [UserClose, ObjClose] else [ObjClose])
  }

  /** The separator as written: a change of user writes only a comma before the next opening. */
  const SepAsWritten: seq<Chunk> := [Comma]

  /** The separator that closes the previous user's object first. */
  const SepClosing: seq<Chunk> := [UserClose, Comma]

  /** `serveStats` as written. */
  function StatsBodyAsWritten(rows: seq<UserRepoCount>): string
  {
    Render(StatsChunks(rows, SepAsWritten))
  }

  /** `serveStats` with the previous user object closed before the next one opens. */
  function StatsBody(rows: seq<UserRepoCount>): string
  {
    Render(StatsChunks(rows, SepClosing))
  }

  // ---------------------------------------------------------------------------
  // The grouped view

  /** One user object: opening, entries, closing. */
  function GroupChunks(g: Group): seq<Chunk>
  {
    [UserOpen(g.user)] + Entries(g.repos) + [UserClose]
  }

  /** User objects separated by commas. */
  function GroupsChunks(gs: seq<Group>): seq<Chunk>
  {
    if gs == [] then [] else GroupChunks(gs[0]) + MoreGroups(gs[1..])
  }

  function MoreGroups(gs: seq<Group>): seq<Chunk>
  {
    if gs == [] then [] else [Comma] + GroupChunks(gs[0]) + MoreGroups(gs[1..])
  }

  /** The grouped view as a JSON object of user objects. */
  function ViewChunks(gs: seq<Group>): seq<Chunk>
  {
    [ObjOpen] + GroupsChunks(gs) + [ObjClose]
  }

  function RenderStats(gs: seq<Group>): string
  {
    Render(ViewChunks(gs))
  }

  /** The runs after the first, each preceded by `sep`; the last run is left open. */
  function LaterRuns(gs: seq<Group>, sep: seq<Chunk>): seq<Chunk>
  {
    if gs == [] then [] else sep + [UserOpen(gs[0].user)] + Entries(gs[0].repos) + LaterRuns(gs[1..], sep)
  }

  /** What is written before a run's opening: nothing before the first row, `sep` after a row. */
  function Opening(prev: Prev, sep: seq<Chunk>): seq<Chunk>
  {
    if prev.After? then sep else []
  }

  /**
   The runs `gs` as the loop writes them when entered in state `prev`: the
   first run continues the previous user's object when `prev` names its user,
   and otherwise opens a new one; every later run opens after `sep`.
   */
  function RunsFrom(gs: seq<Group>, prev: Prev, sep: seq<Chunk>): seq<Chunk>
    requires gs != []
  {
    var first :=
      if prev == After(gs[0].user) then MoreEntries(gs[0].repos)
      else Opening(prev, sep) + [UserOpen(gs[0].user)] + Entries(gs[0].repos);
    first + LaterRuns(gs[1..], sep)
  }

  lemma EntriesCons(e: RepoCount, R: seq<RepoCount>)
    ensures Entries([e] + R) == [Line(e)] + MoreEntries(R)
    ensures MoreEntries([e] + R) == [Comma, Line(e)] + MoreEntries(R)
  {
    ConsSplit([e], R);
  }

  /** The runs written from state `prev`, with the first run `g` taken apart. */
  lemma RunsFromCons(g: Group, later: seq<Group>, prev: Prev, sep: seq<Chunk>)
    ensures RunsFrom([g] + later, prev, sep) ==
      (if prev == After(g.user) then MoreEntries(g.repos) else Opening(prev, sep) + [UserOpen(g.user)] + Entries(g.repos))
      + LaterRuns(later, sep)
  {
    ConsSplit([g], later);
  }

  /** A row under a new user writes what comes before an opening, the opening and its line. */
  lemma PieceOpens(prev: Prev, x: UserRepoCount, sep: seq<Chunk>)
    requires prev != After(x.user)
    ensures Piece(prev, x, sep) == Opening(prev, sep) + [UserOpen(x.user)] + [Line(Entry(x))]
  {
  }

  lemma Regroup(a: seq<Chunk>, b: seq<Chunk>, c: seq<Chunk>, d: seq<Chunk>)
    ensures (a + (b + c)) + d == (a + b) + (c + d)
  {
    Assoc(a, b, c);
    Assoc(a + b, c, d);
  }

  /** The first row when it joins the run that follows it, continuing the previous row's user. */
  lemma PiecesJoinSameUser(x: UserRepoCount, R: seq<RepoCount>, later: seq<Group>, sep: seq<Chunk>, tailText: seq<Chunk>)
    requires tailText == MoreEntries(R) + LaterRuns(later, sep)
    ensures Piece(After(x.user), x, sep) + tailText == RunsFrom([Group(x.user, [Entry(x)] + R)] + later, After(x.user), sep)
  {
    var e := Entry(x);
    var more, runs := MoreEntries(R), LaterRuns(later, sep);
    calc {
      RunsFrom([Group(x.user, [e] + R)] + later, After(x.user), sep);
      { RunsFromCons(Group(x.user, [e] + R), later, After(x.user), sep); }
      MoreEntries([e] + R) + runs;
      { EntriesCons(e, R); }
      ([Comma, Line(e)] + more) + runs;
      { Assoc([Comma, Line(e)], more, runs); }
      [Comma, Line(e)] + (more + runs);
    }
  }

  /** The first row when it joins the run that follows it, opening a new user object. */
  lemma PiecesJoinNewUser(x: UserRepoCount, R: seq<RepoCount>, later: seq<Group>, prev: Prev, sep: seq<Chunk>, tailText: seq<Chunk>)
    requires prev != After(x.user)
    requires tailText == MoreEntries(R) + LaterRuns(later, sep)
    ensures Piece(prev, x, sep) + tailText == RunsFrom([Group(x.user, [Entry(x)] + R)] + later, prev, sep)
  {
    var e := Entry(x);
    var more, runs := MoreEntries(R), LaterRuns(later, sep);
    var open := Opening(prev, sep) + [UserOpen(x.user)];
    calc {
      RunsFrom([Group(x.user, [e] + R)] + later, prev, sep);
      { RunsFromCons(Group(x.user, [e] + R), later, prev, sep); }
      (open + Entries([e] + R)) + runs;
      { EntriesCons(e, R); }
      (open + ([Line(e)] + more)) + runs;
      { Regroup(open, [Line(e)], more, runs); }
      (open + [Line(e)]) + (more + runs);
      { PieceOpens(prev, x, sep); }
      Piece(prev, x, sep) + tailText;
    }
  }

  /** The first row when it is a run of its own. */
  lemma PiecesSplit(x: UserRepoCount, rest: seq<Group>, prev: Prev, sep: seq<Chunk>, tailText: seq<Chunk>)
    requires tailText == LaterRuns(rest, sep)
    ensures Piece(prev, x, sep) + tailText == RunsFrom([Group(x.user, [Entry(x)])] + rest, prev, sep)
  {
    var e := Entry(x);
    RunsFromCons(Group(x.user, [e]), rest, prev, sep);
    assert [e] == [e] + [];
    EntriesCons(e, []);
    if prev != After(x.user) {
      PieceOpens(prev, x, sep);
    }
  }

  /** The loop entered in state `prev` writes the runs of `rows`. */
  lemma {:induction false} PiecesAreRuns(rows: seq<UserRepoCount>, prev: Prev, sep: seq<Chunk>)
    requires rows != []
    ensures Pieces(rows, prev, sep) == RunsFrom(GroupByUser(rows), prev, sep)
    decreases |rows|
  {
    var x := rows[0];
    var tail := rows[1..];
    var tailText := Pieces(tail, After(x.user), sep);
    assert Pieces(rows, prev, sep) == Piece(prev, x, sep) + tailText;
    if tail == [] {
      assert GroupByUser(rows) == [Group(x.user, [Entry(x)])] + [];
      PiecesSplit(x, [], prev, sep, tailText);
    } else {
      PiecesAreRuns(tail, After(x.user), sep);
      var rest := GroupByUser(tail);
      if rest[0].user == x.user {
        assert GroupByUser(rows) == [Group(x.user, [Entry(x)] + rest[0].repos)] + rest[1..];
        if prev == After(x.user) {
          PiecesJoinSameUser(x, rest[0].repos, rest[1..], sep, tailText);
        } else {
          PiecesJoinNewUser(x, rest[0].repos, rest[1..], prev, sep, tailText);
        }
      } else {
        assert GroupByUser(rows) == [Group(x.user, [Entry(x)])] + rest;
        assert tailText == LaterRuns(rest, sep);
        PiecesSplit(x, rest, prev, sep, tailText);
      }
    }
  }

  lemma LaterRunsUnfold(gs: seq<Group>, sep: seq<Chunk>)
    requires gs != []
    ensures LaterRuns(gs, sep) == sep + ([UserOpen(gs[0].user)] + Entries(gs[0].repos)) + LaterRuns(gs[1..], sep)
  {
    Assoc(sep, [UserOpen(gs[0].user)], Entries(gs[0].repos));
  }

  lemma MoreGroupsUnfold(gs: seq<Group>)
    requires gs != []
    ensures MoreGroups(gs) == [Comma] + (([UserOpen(gs[0].user)] + Entries(gs[0].repos)) + [UserClose]) + MoreGroups(gs[1..])
  {
  }

  /** One step of `ClosedRuns`: the closing moves past one open run. */
  lemma ClosedStep(open: seq<Chunk>, rest: seq<Chunk>, more: seq<Chunk>)
    requires rest + [UserClose] == [UserClose] + more
    ensures SepClosing + open + rest + [UserClose] == [UserClose] + ([Comma] + (open + [UserClose]) + more)
  {
    assert SepClosing == [UserClose] + [Comma];
    calc {
      SepClosing + open + rest + [UserClose];
      [UserClose] + [Comma] + open + (rest + [UserClose]);
      [UserClose] + [Comma] + open + ([UserClose] + more);
    }
  }

  /** With the closing separator, the open later runs plus one closing are the later user objects. */
  lemma {:induction false} ClosedRuns(gs: seq<Group>)
    ensures LaterRuns(gs, SepClosing) + [UserClose] == [UserClose] + MoreGroups(gs)
    decreases |gs|
  {
    if gs != [] {
      ClosedRuns(gs[1..]);
      var g := gs[0];
      var open := [UserOpen(g.user)] + Entries(g.repos);
      var rest, more := LaterRuns(gs[1..], SepClosing), MoreGroups(gs[1..]);
      LaterRunsUnfold(gs, SepClosing);
      MoreGroupsUnfold(gs);
      ClosedStep(open, rest, more);
    } else {
      assert LaterRuns(gs, SepClosing) + [UserClose] == [UserClose];
    }
  }

  /**
   The corrected `serveStats` writes the grouped view: one object per run of
   the rows, each closed, separated by commas. Users come from route segments
   and are never empty, so `last_user` is empty only without rows.
   */
  lemma StatsChunksAreGrouped(rows: seq<UserRepoCount>)
    requires rows != [] ==> LastUser(rows) != ""
    ensures StatsChunks(rows, SepClosing) == ViewChunks(GroupByUser(rows))
    ensures StatsBody(rows) == RenderStats(GroupByUser(rows))
  {
    var gs := GroupByUser(rows);
    if rows != [] {
      PiecesAreRuns(rows, First, SepClosing);
      ClosedRuns(gs[1..]);
      var open := [UserOpen(gs[0].user)] + Entries(gs[0].repos);
      var later := LaterRuns(gs[1..], SepClosing);
      var more := MoreGroups(gs[1..]);
      assert Pieces(rows, First, SepClosing) == open + later by {
        assert Opening(First, SepClosing) + [UserOpen(gs[0].user)] == [UserOpen(gs[0].user)];
      }
      assert StatsChunks(rows, SepClosing) == [ObjOpen] + (open + later) + [UserClose, ObjClose];
      assert ViewChunks(gs) == [ObjOpen] + ((open + [UserClose]) + more) + [ObjClose];
      CloseLastRun(open, later, more);
    }
  }

  /** Closing the last open run moves its closing in front of the later objects. */
  lemma CloseLastRun(open: seq<Chunk>, later: seq<Chunk>, more: seq<Chunk>)
    requires later + [UserClose] == [UserClose] + more
    ensures [ObjOpen] + (open + later) + [UserClose, ObjClose] == [ObjOpen] + ((open + [UserClose]) + more) + [ObjClose]
  {
    calc {
      [ObjOpen] + (open + later) + [UserClose, ObjClose];
      [ObjOpen] + open + (later + [UserClose]) + [ObjClose];
      [ObjOpen] + open + ([UserClose] + more) + [ObjClose];
      [ObjOpen] + ((open + [UserClose]) + more) + [ObjClose];
    }
  }

  /** With no rows the body is an empty object, under either separator. */
  lemma StatsBodyEmpty()
    ensures StatsBody([]) == "{\n}"
    ensures StatsBodyAsWritten([]) == "{\n}"
  {
    assert StatsChunks([], SepClosing) == [ObjOpen, ObjClose];
    assert StatsChunks([], SepAsWritten) == [ObjOpen, ObjClose];
    assert Render([ObjClose]) == "\n}" + Render([]);
    assert Render([ObjOpen, ObjClose]) == "{" + Render([ObjClose]);
  }

  /** `serveUserStats` writes exactly what `serveStats` writes for a single user's run. */
  lemma UserStatsBodyIsOneGroup(user: string, rows: seq<RepoCount>)
    ensures UserStatsChunks(user, rows) == ViewChunks([Group(user, rows)])
    ensures UserStatsBody(user, rows) == RenderStats([Group(user, rows)])
  {
    assert GroupsChunks([Group(user, rows)]) == GroupChunks(Group(user, rows)) + MoreGroups([]);
  }

  // ---------------------------------------------------------------------------
  // Braces

  /** The number of times `c` occurs in `s`. */
  function Occurrences(c: char, s: string): nat
  {
    multiset(s)[c]
  }

  /** Chunks that write a `{`: the outer opening and each user opening. */
  function Opens(cs: seq<Chunk>): nat
  {
    if cs == [] then 0 else (if cs[0].ObjOpen? || cs[0].UserOpen? then 1 else 0) + Opens(cs[1..])
  }

  /** Chunks that write a `}`: each user closing and the outer closing. */
  function Closes(cs: seq<Chunk>): nat
  {
    if cs == [] then 0 else (if cs[0].UserClose? || cs[0].ObjClose? then 1 else 0) + Closes(cs[1..])
  }

  /** Every name a chunk writes is brace-free. */
  ghost predicate ChunksBraceFree(cs: seq<Chunk>)
  {
    forall i :: 0 <= i < |cs| ==> match cs[i]
      case UserOpen(u) => BraceFree(u)
      case Line(e) => BraceFree(e.repo)
      case _ => true
  }

  lemma BraceFreeCount(s: string)
    requires BraceFree(s)
    ensures Occurrences('{', s) == 0 && Occurrences('}', s) == 0
  {
    assert '{' !in s && '}' !in s;
  }

  lemma OccurrencesConcat(c: char, a: string, b: string)
    ensures Occurrences(c, a + b) == Occurrences(c, a) + Occurrences(c, b)
  {
    assert multiset(a + b) == multiset(a) + multiset(b);
  }

  /** A count's decimal text holds no brace. */
  lemma DigitsBraceFree(n: nat)
    ensures Occurrences('{', Decimal.Format(n)) == 0 && Occurrences('}', Decimal.Format(n)) == 0
  {
    var digits := Decimal.Format(n);
    assert BraceFree(digits);
    BraceFreeCount(digits);
  }

  lemma UserOpenBraces(u: string)
    requires BraceFree(u)
    ensures Occurrences('{', Text(UserOpen(u))) == 1
    ensures Occurrences('}', Text(UserOpen(u))) == 0
  {
    BraceFreeCount(u);
    var a, b := "\n  \"", "\": {";
    assert multiset(a) == multiset{'\n', ' ', ' ', '"'};
    assert multiset(b) == multiset{'"', ':', ' ', '{'};
    OccurrencesConcat('{', a, u);
    OccurrencesConcat('{', a + u, b);
    OccurrencesConcat('}', a, u);
    OccurrencesConcat('}', a + u, b);
  }

  lemma LineBraces(e: RepoCount)
    requires BraceFree(e.repo)
    ensures Occurrences('{', Text(Line(e))) == 0
    ensures Occurrences('}', Text(Line(e))) == 0
  {
    var a, b, digits := "\n    \"", "\": ", Decimal.Format(e.count);
    BraceFreeCount(e.repo);
    DigitsBraceFree(e.count);
    assert multiset(a) == multiset{'\n', ' ', ' ', ' ', ' ', '"'};
    assert multiset(b) == multiset{'"', ':', ' '};
    OccurrencesConcat('{', a, e.repo);
    OccurrencesConcat('{', a + e.repo, b);
    OccurrencesConcat('{', a + e.repo + b, digits);
    OccurrencesConcat('}', a, e.repo);
    OccurrencesConcat('}', a + e.repo, b);
    OccurrencesConcat('}', a + e.repo + b, digits);
  }

  /** The fixed texts: `{` opens, `,` neither opens nor closes, the two closings close. */
  lemma ObjOpenBraces()
    ensures Occurrences('{', "{") == 1 && Occurrences('}', "{") == 0
  {
    assert multiset("{") == multiset{'{'};
  }

  lemma CommaBraces()
    ensures Occurrences('{', ",") == 0 && Occurrences('}', ",") == 0
  {
    assert multiset(",") == multiset{','};
  }

  lemma UserCloseBraces()
    ensures Occurrences('{', "\n  }") == 0 && Occurrences('}', "\n  }") == 1
  {
    assert multiset("\n  }") == multiset{'\n', ' ', ' ', '}'};
  }

  lemma ObjCloseBraces()
    ensures Occurrences('{', "\n}") == 0 && Occurrences('}', "\n}") == 1
  {
    assert multiset("\n}") == multiset{'\n', '}'};
  }

  /** A chunk writes one `{` if it opens an object and one `}` if it closes one. */
  lemma TextBraces(c: Chunk)
    requires c.UserOpen? ==> BraceFree(c.user)
    requires c.Line? ==> BraceFree(c.e.repo)
    ensures Occurrences('{', Text(c)) == Opens([c])
    ensures Occurrences('}', Text(c)) == Closes([c])
  {
    assert [c][1..] == [];
    match c
    case UserOpen(u) => UserOpenBraces(u);
    case Line(e) => LineBraces(e);
    case ObjOpen => ObjOpenBraces();
    case Comma => CommaBraces();
    case UserClose => UserCloseBraces();
    case ObjClose => ObjCloseBraces();
  }

  lemma RenderOccurrences(cs: seq<Chunk>, c: char)
    requires cs != []
    ensures Occurrences(c, Render(cs)) == Occurrences(c, Text(cs[0])) + Occurrences(c, Render(cs[1..]))
  {
    var head, rest := Text(cs[0]), Render(cs[1..]);
    assert Render(cs) == head + rest;
    assert multiset(head + rest) == multiset(head) + multiset(rest);
  }

  /** With brace-free names, the text has one `{` per opening chunk and one `}` per closing chunk. */
  lemma {:induction false} RenderBraces(cs: seq<Chunk>)
    requires ChunksBraceFree(cs)
    ensures Occurrences('{', Render(cs)) == Opens(cs)
    ensures Occurrences('}', Render(cs)) == Closes(cs)
    decreases |cs|
  {
    if cs != [] {
      assert ChunksBraceFree(cs[1..]) by {
        forall i | 0 <= i < |cs[1..]|
          ensures cs[1..][i] == cs[i + 1]
        {
        }
      }
      RenderBraces(cs[1..]);
      assert 0 < |cs|;
      TextBraces(cs[0]);
      RenderOccurrences(cs, '{');
      RenderOccurrences(cs, '}');
    }
  }

  lemma {:induction false} OpensConcat(a: seq<Chunk>, b: seq<Chunk>)
    ensures Opens(a + b) == Opens(a) + Opens(b)
    ensures Closes(a + b) == Closes(a) + Closes(b)
    decreases |a|
  {
    if a != [] {
      OpensConcat(a[1..], b);
      assert (a + b)[0] == a[0] && (a + b)[1..] == a[1..] + b;
    } else {
      assert a + b == b;
    }
  }

  lemma {:induction false} EntriesCounts(es: seq<RepoCount>)
    ensures Opens(Entries(es)) == 0 && Closes(Entries(es)) == 0
    ensures Opens(MoreEntries(es)) == 0 && Closes(MoreEntries(es)) == 0
    decreases |es|
  {
    if es != [] {
      EntriesCounts(es[1..]);
      OpensConcat([Line(es[0])], MoreEntries(es[1..]));
      OpensConcat([Comma, Line(es[0])], MoreEntries(es[1..]));
    }
  }

  lemma OpensConcat3(a: seq<Chunk>, b: seq<Chunk>, c: seq<Chunk>)
    ensures Opens(a + b + c) == Opens(a) + Opens(b) + Opens(c)
    ensures Closes(a + b + c) == Closes(a) + Closes(b) + Closes(c)
  {
    OpensConcat(a, b);
    OpensConcat(a + b, c);
  }

  /** Each later run writes one `{` and the separator's closings. */
  lemma {:induction false} LaterRunsCounts(gs: seq<Group>, sep: seq<Chunk>)
    requires Opens(sep) == 0
    ensures Opens(LaterRuns(gs, sep)) == |gs|
    ensures Closes(LaterRuns(gs, sep)) == |gs| * Closes(sep)
    decreases |gs|
  {
    if gs != [] {
      var open, rest := [UserOpen(gs[0].user)] + Entries(gs[0].repos), LaterRuns(gs[1..], sep);
      LaterRunsCounts(gs[1..], sep);
      LaterRunsUnfold(gs, sep);
      FirstRunCounts(gs[0]);
      OpensConcat3(sep, open, rest);
      assert |gs| * Closes(sep) == Closes(sep) + (|gs| - 1) * Closes(sep);
    } else {
      assert LaterRuns(gs, sep) == [];
    }
  }

  /** The outer braces and the final user closing around the loop's writes. */
  lemma FrameCounts(mid: seq<Chunk>)
    ensures Opens([ObjOpen] + mid + [UserClose, ObjClose]) == Opens(mid) + 1
    ensures Closes([ObjOpen] + mid + [UserClose, ObjClose]) == Closes(mid) + 2
  {
    OpensConcat([ObjOpen], mid);
    OpensConcat([ObjOpen] + mid, [UserClose, ObjClose]);
    assert [UserClose, ObjClose][1..] == [ObjClose];
  }

  /** The first run opens one object and closes none. */
  lemma FirstRunCounts(g: Group)
    ensures Opens([UserOpen(g.user)] + Entries(g.repos)) == 1
    ensures Closes([UserOpen(g.user)] + Entries(g.repos)) == 0
  {
    EntriesCounts(g.repos);
    OpensConcat([UserOpen(g.user)], Entries(g.repos));
  }

  /**
   The openings and closings `serveStats` writes under a separator with no
   opening: one opening for the outer object and one per user; two closings
   at the end and the separator's closings once per change of user.
   */
  lemma StatsChunksCounts(rows: seq<UserRepoCount>, sep: seq<Chunk>)
    requires Opens(sep) == 0
    requires rows != [] ==> LastUser(rows) != ""
    ensures var n := |GroupByUser(rows)|;
            n > 0 ==> (Opens(StatsChunks(rows, sep)) == n + 1 && Closes(StatsChunks(rows, sep)) == (n - 1) * Closes(sep) + 2)
  {
    var gs := GroupByUser(rows);
    if rows != [] {
      PiecesAreRuns(rows, First, sep);
      var open := [UserOpen(gs[0].user)] + Entries(gs[0].repos);
      var later := LaterRuns(gs[1..], sep);
      assert Pieces(rows, First, sep) == open + later by {
        assert Opening(First, sep) + [UserOpen(gs[0].user)] == [UserOpen(gs[0].user)];
      }
      assert StatsChunks(rows, sep) == [ObjOpen] + (open + later) + [UserClose, ObjClose];
      LaterRunsCounts(gs[1..], sep);
      FirstRunCounts(gs[0]);
      OpensConcat(open, later);
      FrameCounts(open + later);
    }
  }

  /** Every chunk the loop writes carries a name of some row, or none. */
  lemma {:induction false} PiecesBraceFree(rows: seq<UserRepoCount>, prev: Prev, sep: seq<Chunk>)
    requires forall i :: 0 <= i < |rows| ==> BraceFree(rows[i].user) && BraceFree(rows[i].repo)
    requires ChunksBraceFree(sep)
    ensures ChunksBraceFree(Pieces(rows, prev, sep))
    decreases |rows|
  {
    if rows != [] {
      PiecesBraceFree(rows[1..], After(rows[0].user), sep);
    }
  }

  /** With brace-free names, every chunk of the body is brace-free. */
  lemma StatsChunksBraceFree(rows: seq<UserRepoCount>, sep: seq<Chunk>)
    requires forall i :: 0 <= i < |rows| ==> BraceFree(rows[i].user) && BraceFree(rows[i].repo)
    requires ChunksBraceFree(sep)
    ensures ChunksBraceFree(StatsChunks(rows, sep))
  {
    PiecesBraceFree(rows, First, sep);
  }

  /** Neither separator opens an object or writes a name; only the closing one closes an object. */
  lemma SepCounts()
    ensures Opens(SepClosing) == 0 && Closes(SepClosing) == 1 && ChunksBraceFree(SepClosing)
    ensures Opens(SepAsWritten) == 0 && Closes(SepAsWritten) == 0 && ChunksBraceFree(SepAsWritten)
  {
    assert SepClosing[1..] == [Comma] && [Comma][1..] == [];
  }

  /** The text of brace-free chunks has the chunks' counts of `{` and `}`. */
  lemma BodyBraces(rows: seq<UserRepoCount>, sep: seq<Chunk>)
    requires forall i :: 0 <= i < |rows| ==> BraceFree(rows[i].user) && BraceFree(rows[i].repo)
    requires ChunksBraceFree(sep)
    ensures Occurrences('{', Render(StatsChunks(rows, sep))) == Opens(StatsChunks(rows, sep))
    ensures Occurrences('}', Render(StatsChunks(rows, sep))) == Closes(StatsChunks(rows, sep))
  {
    StatsChunksBraceFree(rows, sep);
    RenderBraces(StatsChunks(rows, sep));
  }

  /** The empty object `{` newline `}` is balanced. */
  lemma EmptyObjectBalanced()
    ensures Occurrences('{', "{\n}") == 1 && Occurrences('}', "{\n}") == 1
  {
    assert multiset("{\n}") == multiset{'{', '\n', '}'};
  }

  /**
   The corrected body has as many `}` as `{`: with brace-free names (every
   name the routes admit is), each user object it opens is closed.
   */
  lemma StatsBodyBalanced(rows: seq<UserRepoCount>)
    requires forall i :: 0 <= i < |rows| ==> BraceFree(rows[i].user) && BraceFree(rows[i].repo)
    requires rows != [] ==> LastUser(rows) != ""
    ensures Occurrences('{', StatsBody(rows)) == Occurrences('}', StatsBody(rows))
  {
    if rows == [] {
      StatsBodyEmpty();
      EmptyObjectBalanced();
    } else {
      SepCounts();
      BodyBraces(rows, SepClosing);
      StatsChunksCounts(rows, SepClosing);
      assert GroupByUser(rows) != [];
    }
  }

  /** As written, every user after the first leaves one `{` unmatched. */
  lemma StatsBodyAsWrittenUnbalanced(rows: seq<UserRepoCount>)
    requires forall i :: 0 <= i < |rows| ==> BraceFree(rows[i].user) && BraceFree(rows[i].repo)
    requires rows != [] ==> LastUser(rows) != ""
    ensures var n := |GroupByUser(rows)|;
            n > 0 ==> Occurrences('{', StatsBodyAsWritten(rows)) == n + 1 && Occurrences('}', StatsBodyAsWritten(rows)) == 2
  {
    SepCounts();
    BodyBraces(rows, SepAsWritten);
    StatsChunksCounts(rows, SepAsWritten);
  }

  /** The two rows of two stored users form two runs. */
  lemma TwoUsersTwoRuns()
    ensures |GroupByUser([UserRepoCount("alice", "proj", 1), UserRepoCount("bob", "proj", 2)])| == 2
  {
    var rows := [UserRepoCount("alice", "proj", 1), UserRepoCount("bob", "proj", 2)];
    assert rows[1..] == [UserRepoCount("bob", "proj", 2)];
    assert rows[1..][1..] == [];
    assert GroupByUser(rows[1..]) == [Group("bob", [RepoCount("proj", 2)])];
  }

  lemma CounterexampleRowsBraceFree()
    ensures var rows := [UserRepoCount("alice", "proj", 1), UserRepoCount("bob", "proj", 2)];
            forall i :: 0 <= i < |rows| ==> BraceFree(rows[i].user) && BraceFree(rows[i].repo)
  {
    assert BraceFree("alice") && BraceFree("bob") && BraceFree("proj");
  }

  /**
   `serveUserRepoStats` writes two objects, both closed: with brace-free
   names its body has exactly two `{` and two `}`.
   */
  lemma UserRepoStatsBodyBalanced(user: string, repo: string, count: nat)
    requires BraceFree(user) && BraceFree(repo)
    ensures Occurrences('{', UserRepoStatsBody(user, repo, count)) == 2
    ensures Occurrences('}', UserRepoStatsBody(user, repo, count)) == 2
  {
    var a, b, c, digits, d := "{\"", "\": {\n  \"", "\": ", Decimal.Format(count), "\n}\n}";
    var body := a + user + b + repo + c + digits + d;
    assert UserRepoStatsBody(user, repo, count) == body;
    BraceFreeCount(user);
    BraceFreeCount(repo);
    DigitsBraceFree(count);
    LiteralCounts(a, b, c, d);
    calc {
      Occurrences('{', body);
      { OccurrencesConcat6('{', a, user, b, repo, c, digits, d); }
      Occurrences('{', a) + Occurrences('{', user) + Occurrences('{', b) + Occurrences('{', repo)
        + Occurrences('{', c) + Occurrences('{', digits) + Occurrences('{', d);
      2;
    }
    calc {
      Occurrences('}', body);
      { OccurrencesConcat6('}', a, user, b, repo, c, digits, d); }
      Occurrences('}', a) + Occurrences('}', user) + Occurrences('}', b) + Occurrences('}', repo)
        + Occurrences('}', c) + Occurrences('}', digits) + Occurrences('}', d);
      2;
    }
  }

  /**
   The `serveUserRepoStats` body gives back what it was written from: the user
   and the repo stand at fixed offsets, and the text between the repo's `": `
   and the four closing characters reads back as the count.
   */
  lemma UserRepoStatsBodyFields(user: string, repo: string, count: nat)
    ensures var b := UserRepoStatsBody(user, repo, count);
            && |b| == |user| + |repo| + |Decimal.Format(count)| + 17
            && b[2 .. 2 + |user|] == user
            && b[|user| + 10 .. |user| + 10 + |repo|] == repo
            && Decimal.Parse(b[|user| + |repo| + 13 .. |b| - 4]) == count
  {
    Decimal.ParseFormat(count);
  }

  /** The fixed parts of the `serveUserRepoStats` body: one `{` before the user, one after, both `}` at the end. */
  lemma LiteralCounts(a: string, b: string, c: string, d: string)
    requires a == "{\"" && b == "\": {\n  \"" && c == "\": " && d == "\n}\n}"
    ensures Occurrences('{', a) == 1 && Occurrences('}', a) == 0
    ensures Occurrences('{', b) == 1 && Occurrences('}', b) == 0
    ensures Occurrences('{', c) == 0 && Occurrences('}', c) == 0
    ensures Occurrences('{', d) == 0 && Occurrences('}', d) == 2
  {
    assert multiset(a) == multiset{'{', '"'};
    assert multiset(b) == multiset{'"', ':', ' ', '{', '\n', ' ', ' ', '"'};
    assert multiset(c) == multiset{'"', ':', ' '};
    assert multiset(d) == multiset{'\n', '}', '\n', '}'};
  }

  lemma OccurrencesConcat6(ch: char, s1: string, s2: string, s3: string, s4: string, s5: string, s6: string, s7: string)
    ensures Occurrences(ch, s1 + s2 + s3 + s4 + s5 + s6 + s7)
         == Occurrences(ch, s1) + Occurrences(ch, s2) + Occurrences(ch, s3) + Occurrences(ch, s4)
          + Occurrences(ch, s5) + Occurrences(ch, s6) + Occurrences(ch, s7)
  {
    OccurrencesConcat(ch, s1, s2);
    OccurrencesConcat(ch, s1 + s2, s3);
    OccurrencesConcat(ch, s1 + s2 + s3, s4);
    OccurrencesConcat(ch, s1 + s2 + s3 + s4, s5);
    OccurrencesConcat(ch, s1 + s2 + s3 + s4 + s5, s6);
    OccurrencesConcat(ch, s1 + s2 + s3 + s4 + s5 + s6, s7);
  }

  /** The names in a listing of a valid table are brace-free, and the last user is not empty. */
  lemma ListingNames(db: Store, rows: seq<UserRepoCount>)
    requires ValidStore(db) && IsFullListing(db, rows)
    ensures forall i :: 0 <= i < |rows| ==> BraceFree(rows[i].user) && BraceFree(rows[i].repo)
    ensures rows != [] ==> LastUser(rows) != ""
  {
    forall i | 0 <= i < |rows|
      ensures BraceFree(rows[i].user) && BraceFree(rows[i].repo) && rows[i].user != ""
    {
      assert rows[i].KeyOf() in db;
      AsWrittenIsBraceFree(rows[i].user);
      AsWrittenIsBraceFree(rows[i].repo);
    }
  }

  /**
   The corrected `serveStats` on a table reached through the routes: the body
   is the grouped view, with one object per stored user in ascending user
   order, each holding exactly that user's repos in ascending order, and as
   many `}` as `{`.
   */
  lemma StatsBodyOfStore(db: Store, rows: seq<UserRepoCount>)
    requires ValidStore(db) && IsFullListing(db, rows)
    ensures StatsBody(rows) == RenderStats(GroupByUser(rows))
    ensures UsersAscending(GroupByUser(rows))
    ensures forall g :: 0 <= g < |GroupByUser(rows)| ==> IsRepoListing(db, GroupByUser(rows)[g].user, GroupByUser(rows)[g].repos)
    ensures forall k :: k in db ==> HasGroup(GroupByUser(rows), k.user)
    ensures Occurrences('{', StatsBody(rows)) == Occurrences('}', StatsBody(rows))
  {
    ListingNames(db, rows);
    StatsChunksAreGrouped(rows);
    GroupsOfListing(db, rows);
    StatsBodyBalanced(rows);
  }

  /** Two stored users are enough: the body as written opens three objects and closes two. */
  lemma StatsBodyAsWrittenCounterexample()
    ensures var rows := [UserRepoCount("alice", "proj", 1), UserRepoCount("bob", "proj", 2)];
            Occurrences('{', StatsBodyAsWritten(rows)) == 3 && Occurrences('}', StatsBodyAsWritten(rows)) == 2
  {
    var rows := [UserRepoCount("alice", "proj", 1), UserRepoCount("bob", "proj", 2)];
    TwoUsersTwoRuns();
    CounterexampleRowsBraceFree();
    StatsBodyAsWrittenUnbalanced(rows);
  }
}

=== FILE: decimal.dfy ===
/**
 Go's `fmt.Sprintf("%d", n)` on a non-negative count: its decimal digits,
 most significant first, with no sign and no leading zero.
 */
module Decimal {

  function DigitChar(d: nat): (c: char)
    requires d < 10
    ensures '0' <= c <= '9'
  {
    "0123456789"[d]
  }

  function DigitValue(c: char): nat
  {
    if '0' <= c <= '9' then (c as int - '0' as int) as nat else 0
  }

  predicate IsDigits(s: string)
  {
    forall i :: 0 <= i < |s| ==> '0' <= s[i] <= '9'
  }

  /** The decimal text of `n`. */
  function Format(n: nat): (s: string)
    ensures |s| > 0 && IsDigits(s)
    ensures s[0] == '0' ==> n == 0
    decreases n
  {
    if n < 10 then [DigitChar(n)] else Format(n / 10) + [DigitChar(n % 10)]
  }

  /** The value of a string of decimal digits. */
  function Parse(s: string): nat
    decreases |s|
  {
    if s == [] then 0 else Parse(s[..|s| - 1]) * 10 + DigitValue(s[|s| - 1])
  }

  function Pow10(k: nat): (p: nat)
    ensures p >= 1
  {
    if k == 0 then 1 else 10 * Pow10(k - 1)
  }

  lemma DigitRoundTrip(d: nat)
    requires d < 10
    ensures DigitValue(DigitChar(d)) == d
  {
  }

  /** Reading the formatted text back gives the number. */
  lemma {:induction false} ParseFormat(n: nat)
    ensures Parse(Format(n)) == n
    decreases n
  {
    DigitRoundTrip(n % 10);
    if n >= 10 {
      ParseFormat(n / 10);
      var s := Format(n);
      assert s[..|s| - 1] == Format(n / 10);
    }
  }

  /** The text has more than k digits exactly when n reaches 10^k. */
  lemma {:induction false} FormatLonger(n: nat, k: nat)
    requires k >= 1
    ensures |Format(n)| > k <==> n >= Pow10(k)
    decreases n
  {
    if n >= 10 && k > 1 {
      FormatLonger(n / 10, k - 1);
    }
  }

  /** Counts below 10000 print in at most four digits; from 10000 on, in five or more. */
  lemma FormatAtLeastFive(n: nat)
    ensures |Format(n)| >= 5 <==> n >= 10000
  {
    FormatLonger(n, 4);
  }
}

=== FILE: grouping.dfy ===
/**
 Grouping the rows of the full scan by user.

 `serveStats` opens a new user object whenever a row's user differs from the
 previous row's. `GroupByUser` states that adjacency comparison as a grouping
 step: it cuts the rows into maximal runs that share a user. On the rows of the
 full scan, the runs have strictly ascending, hence distinct, users, and each
 run is exactly the per-user listing of its user.
 */
module Grouping {
  import opened Ordering
  import opened CounterStore
  import opened Queries
  import opened Seqs

  /** One user's run of rows: the user and its (repo, count) entries in row order. */
  datatype Group = Group(user: string, repos: seq<RepoCount>)

  function Entry(row: UserRepoCount): RepoCount
  {
    RepoCount(row.repo, row.count)
  }

  /** The row an entry of a run stands for. */
  function RowOf(user: string, e: RepoCount): UserRepoCount
  {
    UserRepoCount(user, e.repo, e.count)
  }

  /** The rows a run stands for, one per entry. */
  function Rows(g: Group): (rs: seq<UserRepoCount>)
    ensures |rs| == |g.repos|
    decreases |g.repos|
  {
    if g.repos == [] then [] else [RowOf(g.user, g.repos[0])] + Rows(Group(g.user, g.repos[1..]))
  }

  /** Entry `i` of a run stands for row `i` of its rows. */
  lemma {:induction false} RowsAt(g: Group, i: nat)
    requires i < |g.repos|
    ensures Rows(g)[i] == RowOf(g.user, g.repos[i])
    decreases i
  {
    if i > 0 {
      RowsAt(Group(g.user, g.repos[1..]), i - 1);
    }
  }

  /** Every row of a run stands for one of its entries. */
  lemma {:induction false} RowsCover(g: Group, x: UserRepoCount) returns (i: nat)
    requires x in Rows(g)
    ensures i < |g.repos| && x == RowOf(g.user, g.repos[i])
    decreases |g.repos|
  {
    if x == RowOf(g.user, g.repos[0]) {
      i := 0;
    } else {
      var j := RowsCover(Group(g.user, g.repos[1..]), x);
      i := j + 1;
    }
  }

  /** The rows of a sequence of groups, group after group. */
  function Flatten(gs: seq<Group>): seq<UserRepoCount>
  {
    if gs == [] then [] else Rows(gs[0]) + Flatten(gs[1..])
  }

  lemma FlattenCons(g: Group, gs: seq<Group>)
    ensures Flatten([g] + gs) == Rows(g) + Flatten(gs)
  {
    assert ([g] + gs)[1..] == gs;
  }

  /** The rows of a run with one more entry in front. */
  lemma RowsCons(x: UserRepoCount, repos: seq<RepoCount>)
    ensures Rows(Group(x.user, [Entry(x)] + repos)) == [x] + Rows(Group(x.user, repos))
  {
    assert ([Entry(x)] + repos)[0] == Entry(x) && ([Entry(x)] + repos)[1..] == repos;
  }

  /** A row joining the run `g` in front puts it in front of the rows. */
  lemma JoinFlatten(x: UserRepoCount, g: Group, later: seq<Group>)
    requires g.user == x.user
    ensures Flatten([Group(x.user, [Entry(x)] + g.repos)] + later) == [x] + Flatten([g] + later)
  {
    var r0, tail := Rows(g), Flatten(later);
    calc {
      Flatten([Group(x.user, [Entry(x)] + g.repos)] + later);
      { FlattenCons(Group(x.user, [Entry(x)] + g.repos), later); }
      Rows(Group(x.user, [Entry(x)] + g.repos)) + tail;
      { RowsCons(x, g.repos); assert g == Group(x.user, g.repos); }
      ([x] + r0) + tail;
      { Assoc([x], r0, tail); }
      [x] + (r0 + tail);
      { FlattenCons(g, later); }
      [x] + Flatten([g] + later);
    }
  }

  /** A row forming a run of its own puts it in front of the rows of `rest`. */
  lemma SplitFlatten(x: UserRepoCount, rest: seq<Group>)
    ensures Flatten([Group(x.user, [Entry(x)])] + rest) == [x] + Flatten(rest)
  {
    var first := Group(x.user, [Entry(x)]);
    assert [Entry(x)][1..] == [];
    assert Rows(first) == [x];
    assert ([first] + rest)[1..] == rest;
  }

  /** No run is empty and neighbouring runs have different users. */
  predicate MaximalRuns(gs: seq<Group>)
  {
    && (forall g :: 0 <= g < |gs| ==> |gs[g].repos| > 0)
    && (forall g :: 0 <= g < |gs| - 1 ==> gs[g].user != gs[g + 1].user)
  }

  lemma MaximalJoin(g: Group, rest: seq<Group>)
    requires MaximalRuns(rest) && rest != [] && g.user == rest[0].user && g.repos != []
    ensures MaximalRuns([g] + rest[1..])
  {
    var gs := [g] + rest[1..];
    assert forall i :: 1 <= i < |gs| ==> gs[i] == rest[i];
  }

  lemma MaximalCons(g: Group, rest: seq<Group>)
    requires MaximalRuns(rest) && (rest != [] ==> g.user != rest[0].user) && g.repos != []
    ensures MaximalRuns([g] + rest)
  {
    var gs := [g] + rest;
    assert forall i :: 1 <= i < |gs| ==> gs[i] == rest[i - 1];
  }

  /**
   Cut `rows` into maximal runs of one user. The runs give back the rows, none
   is empty, and two neighbouring runs never share a user.
   */
  function GroupByUser(rows: seq<UserRepoCount>): (gs: seq<Group>)
    ensures Flatten(gs) == rows
    ensures MaximalRuns(gs)
    ensures rows != [] ==> gs != [] && gs[0].user == rows[0].user
    decreases |rows|
  {
    if rows == [] then []
    else
      var x := rows[0];
      var rest := GroupByUser(rows[1..]);
      assert rows == [x] + rows[1..];
      if rest != [] && rest[0].user == x.user then
        assert rest == [rest[0]] + rest[1..];
        JoinFlatten(x, rest[0], rest[1..]);
        MaximalJoin(Group(x.user, [Entry(x)] + rest[0].repos), rest);
        [Group(x.user, [Entry(x)] + rest[0].repos)] + rest[1..]
      else
        SplitFlatten(x, rest);
        MaximalCons(Group(x.user, [Entry(x)]), rest);
        [Group(x.user, [Entry(x)])] + rest
  }

  /** Every entry of every group is one of the flattened rows. */
  lemma {:induction false} FlattenContains(gs: seq<Group>, g: nat, i: nat)
    requires g < |gs| && i < |gs[g].repos|
    ensures UserRepoCount(gs[g].user, gs[g].repos[i].repo, gs[g].repos[i].count) in Flatten(gs)
    decreases g
  {
    if g == 0 {
      RowsAt(gs[0], i);
      assert Rows(gs[0])[i] in Rows(gs[0]);
    } else {
      FlattenContains(gs[1..], g - 1, i);
    }
  }

  /** Every flattened row is an entry of some group, under that group's user. */
  lemma {:induction false} FlattenCovers(gs: seq<Group>, x: UserRepoCount) returns (g: nat, i: nat)
    requires x in Flatten(gs)
    ensures g < |gs| && i < |gs[g].repos|
    ensures x == UserRepoCount(gs[g].user, gs[g].repos[i].repo, gs[g].repos[i].count)
    decreases |gs|
  {
    if x in Rows(gs[0]) {
      var j := RowsCover(gs[0], x);
      g, i := 0, j;
    } else {
      var g', i' := FlattenCovers(gs[1..], x);
      g, i := g' + 1, i';
    }
  }

  /** Strictly ascending users, so no user has two runs. */
  ghost predicate UsersAscending(gs: seq<Group>)
  {
    forall g, h :: 0 <= g < h < |gs| ==> Less(gs[g].user, gs[h].user)
  }

  /** The first of a sorted sequence of rows is below all the others, which are sorted too. */
  lemma SortedRowsTail(rows: seq<UserRepoCount>)
    requires SortedRows(rows) && rows != []
    ensures SortedRows(rows[1..])
    ensures forall y :: y in rows[1..] ==> KeyLess(rows[0].KeyOf(), y.KeyOf())
  {
    var tail := rows[1..];
    forall i, j | 0 <= i < j < |tail|
      ensures KeyLess(tail[i].KeyOf(), tail[j].KeyOf())
    {
      assert tail[i] == rows[i + 1] && tail[j] == rows[j + 1];
    }
    forall y | y in tail
      ensures KeyLess(rows[0].KeyOf(), y.KeyOf())
    {
      var j :| 0 <= j < |tail| && tail[j] == y;
      assert rows[j + 1] == y;
    }
  }

  /** A first run whose user is below the next run's stays in ascending order. */
  lemma UsersAscendingCons(g: Group, rest: seq<Group>)
    requires UsersAscending(rest)
    requires rest != [] ==> Less(g.user, rest[0].user)
    ensures UsersAscending([g] + rest)
  {
    var gs := [g] + rest;
    forall i, j | 0 <= i < j < |gs|
      ensures Less(gs[i].user, gs[j].user)
    {
      if i == 0 && j > 1 {
        LessTransitive(g.user, rest[0].user, rest[j - 1].user);
      }
    }
  }

  /** Replacing the first run by one of the same user keeps the order. */
  lemma UsersAscendingJoin(g: Group, rest: seq<Group>)
    requires UsersAscending(rest) && rest != [] && g.user == rest[0].user
    ensures UsersAscending([g] + rest[1..])
  {
    var gs := [g] + rest[1..];
    assert forall i :: 0 <= i < |gs| ==> gs[i].user == rest[i].user;
  }

  /** The first row's user is below the users of the later runs it does not join. */
  lemma FirstUserBelow(rows: seq<UserRepoCount>)
    requires SortedRows(rows) && |rows| > 1
    requires GroupByUser(rows[1..])[0].user != rows[0].user
    ensures Less(rows[0].user, GroupByUser(rows[1..])[0].user)
  {
    var rest := GroupByUser(rows[1..]);
    SortedRowsTail(rows);
    FlattenContains(rest, 0, 0);
  }

  /** On rows in ascending (user, repo) order, the runs come in strictly ascending user order. */
  lemma {:induction false} UsersAscendingOfSorted(rows: seq<UserRepoCount>)
    requires SortedRows(rows)
    ensures UsersAscending(GroupByUser(rows))
    decreases |rows|
  {
    if rows != [] {
      var x := rows[0];
      SortedRowsTail(rows);
      UsersAscendingOfSorted(rows[1..]);
      var rest := GroupByUser(rows[1..]);
      if rest != [] && rest[0].user == x.user {
        UsersAscendingJoin(Group(x.user, [Entry(x)] + rest[0].repos), rest);
      } else {
        if rest != [] {
          FirstUserBelow(rows);
        }
        UsersAscendingCons(Group(x.user, [Entry(x)]), rest);
      }
    }
  }

  /** Every run's repos are strictly ascending. */
  ghost predicate RunsAscending(gs: seq<Group>)
  {
    forall g :: 0 <= g < |gs| ==> ReposAscending(gs[g].repos)
  }

  lemma RunsAscendingCons(g: Group, rest: seq<Group>)
    requires ReposAscending(g.repos) && RunsAscending(rest)
    ensures RunsAscending([g] + rest)
  {
    assert forall i :: 1 <= i < |[g] + rest| ==> ([g] + rest)[i] == rest[i - 1];
  }

  lemma RunsAscendingTail(rest: seq<Group>)
    requires RunsAscending(rest) && rest != []
    ensures RunsAscending(rest[1..])
  {
    assert forall i :: 0 <= i < |rest[1..]| ==> rest[1..][i] == rest[i + 1];
  }

  /** An entry below every entry of an ascending run extends it in front. */
  lemma ReposAscendingCons(e: RepoCount, R: seq<RepoCount>)
    requires ReposAscending(R)
    requires forall j :: 0 <= j < |R| ==> Less(e.repo, R[j].repo)
    ensures ReposAscending([e] + R)
  {
    var first := [e] + R;
    forall i, j | 0 <= i < j < |first|
      ensures Less(first[i].repo, first[j].repo)
    {
      assert first[j] == R[j - 1];
      if i > 0 {
        assert first[i] == R[i - 1];
      }
    }
  }

  /** The first row's repo is below every repo of the run of the same user it joins. */
  lemma FirstRepoBelow(rows: seq<UserRepoCount>)
    requires SortedRows(rows) && |rows| > 1
    requires GroupByUser(rows[1..])[0].user == rows[0].user
    ensures forall j :: 0 <= j < |GroupByUser(rows[1..])[0].repos| ==> Less(rows[0].repo, GroupByUser(rows[1..])[0].repos[j].repo)
  {
    var rest := GroupByUser(rows[1..]);
    SortedRowsTail(rows);
    forall j | 0 <= j < |rest[0].repos|
      ensures Less(rows[0].repo, rest[0].repos[j].repo)
    {
      FlattenContains(rest, 0, j);
      LessIrreflexive(rows[0].user);
    }
  }

  /** On rows in ascending (user, repo) order, each run's repos are strictly ascending. */
  lemma {:induction false} ReposAscendingOfSorted(rows: seq<UserRepoCount>)
    requires SortedRows(rows)
    ensures RunsAscending(GroupByUser(rows))
    decreases |rows|
  {
    if rows != [] {
      var x := rows[0];
      SortedRowsTail(rows);
      ReposAscendingOfSorted(rows[1..]);
      var rest := GroupByUser(rows[1..]);
      if rest != [] && rest[0].user == x.user {
        FirstRepoBelow(rows);
        ReposAscendingCons(Entry(x), rest[0].repos);
        RunsAscendingTail(rest);
        RunsAscendingCons(Group(x.user, [Entry(x)] + rest[0].repos), rest[1..]);
      } else {
        assert ReposAscending([Entry(x)]);
        RunsAscendingCons(Group(x.user, [Entry(x)]), rest);
      }
    }
  }

  /** Run `g` of the full scan is exactly the per-user listing of its user. */
  lemma GroupIsListing(db: Store, rows: seq<UserRepoCount>, g: nat)
    requires IsFullListing(db, rows)
    requires g < |GroupByUser(rows)|
    ensures IsRepoListing(db, GroupByUser(rows)[g].user, GroupByUser(rows)[g].repos)
  {
    var gs := GroupByUser(rows);
    var u := gs[g].user;
    UsersAscendingOfSorted(rows);
    ReposAscendingOfSorted(rows);
    forall i | 0 <= i < |gs[g].repos|
      ensures Key(u, gs[g].repos[i].repo) in db && db[Key(u, gs[g].repos[i].repo)] == gs[g].repos[i].count
    {
      FlattenContains(gs, g, i);
      var row := UserRepoCount(u, gs[g].repos[i].repo, gs[g].repos[i].count);
      var j :| 0 <= j < |rows| && rows[j] == row;
    }
    forall k | k in db && k.user == u
      ensures exists i :: 0 <= i < |gs[g].repos| && gs[g].repos[i].repo == k.repo
    {
      var j :| 0 <= j < |rows| && rows[j].KeyOf() == k;
      var h, i := FlattenCovers(gs, rows[j]);
      if h != g {
        LessIrreflexive(u);
        assert false;
      }
      assert gs[g].repos[i].repo == k.repo;
    }
  }

  /** Every run of the full scan is the per-user listing of its user. */
  lemma GroupsAreListings(db: Store, rows: seq<UserRepoCount>)
    requires IsFullListing(db, rows)
    ensures var gs := GroupByUser(rows);
            forall g :: 0 <= g < |gs| ==> IsRepoListing(db, gs[g].user, gs[g].repos)
  {
    var gs := GroupByUser(rows);
    forall g | 0 <= g < |gs|
      ensures IsRepoListing(db, gs[g].user, gs[g].repos)
    {
      GroupIsListing(db, rows, g);
    }
  }

  /** Some run belongs to `user`. */
  ghost predicate HasGroup(gs: seq<Group>, user: string)
  {
    exists g :: 0 <= g < |gs| && gs[g].user == user
  }

  /** The run that holds a stored key's user. */
  lemma GroupOfKey(db: Store, rows: seq<UserRepoCount>, k: Key) returns (g: nat)
    requires IsFullListing(db, rows) && k in db
    ensures g < |GroupByUser(rows)| && GroupByUser(rows)[g].user == k.user
  {
    var gs := GroupByUser(rows);
    var j :| 0 <= j < |rows| && rows[j].KeyOf() == k;
    assert rows[j] in Flatten(gs);
    var i;
    g, i := FlattenCovers(gs, rows[j]);
  }

  /** Every stored user has a run in the full scan. */
  lemma {:induction false} EveryUserHasGroup(db: Store, rows: seq<UserRepoCount>)
    requires IsFullListing(db, rows)
    ensures forall k :: k in db ==> HasGroup(GroupByUser(rows), k.user)
  {
    forall k | k in db
      ensures HasGroup(GroupByUser(rows), k.user)
    {
      var g := GroupOfKey(db, rows, k);
    }
  }

  /**
   The runs of the full scan are the per-user listings: one run per stored
   user, in strictly ascending user order, each holding exactly that user's
   repos in ascending order with their counts.
   */
  lemma {:induction false} GroupsOfListing(db: Store, rows: seq<UserRepoCount>)
    requires IsFullListing(db, rows)
    ensures UsersAscending(GroupByUser(rows))
    ensures var gs := GroupByUser(rows);
            forall g :: 0 <= g < |gs| ==> IsRepoListing(db, gs[g].user, gs[g].repos)
    ensures forall k :: k in db ==> HasGroup(GroupByUser(rows), k.user)
  {
    UsersAscendingOfSorted(rows);
    GroupsAreListings(db, rows);
    EveryUserHasGroup(db, rows);
  }
}

=== FILE: ordering.dfy ===
/**
 The order SQLite's default BINARY collation puts on TEXT values.

 BINARY compares the UTF-8 encodings byte by byte, and a shorter string that is
 a prefix of a longer one sorts first. UTF-8 preserves code-point order, so on
 Dafny strings (sequences of Unicode scalar values) the same order is plain
 lexicographic order on characters.
 */
module Ordering {

  /** Strict lexicographic order on strings. */
  predicate Less(a: string, b: string)
    decreases |a|
  {
    if a == [] then b != []
    else if b == [] then false
    else if a[0] != b[0] then a[0] < b[0]
    else Less(a[1..], b[1..])
  }

  lemma {:induction false} LessIrreflexive(a: string)
    ensures !Less(a, a)
    decreases |a|
  {
    if a != [] {
      LessIrreflexive(a[1..]);
    }
  }

  lemma {:induction false} LessTransitive(a: string, b: string, c: string)
    requires Less(a, b) && Less(b, c)
    ensures Less(a, c)
    decreases |a|
  {
    if a != [] && b != [] && c != [] && a[0] == b[0] && b[0] == c[0] {
      LessTransitive(a[1..], b[1..], c[1..]);
    }
  }

  /** Any two different strings are ordered one way or the other. */
  lemma {:induction false} LessTotal(a: string, b: string)
    requires a != b
    ensures Less(a, b) || Less(b, a)
    decreases |a|
  {
    if a != [] && b != [] && a[0] == b[0] {
      assert a == [a[0]] + a[1..] && b == [b[0]] + b[1..];
      LessTotal(a[1..], b[1..]);
    }
  }

  lemma LessAsymmetric(a: string, b: string)
    requires Less(a, b)
    ensures !Less(b, a)
  {
    if Less(b, a) {
      LessTransitive(a, b, a);
      LessIrreflexive(a);
    }
  }
}

=== FILE: queries.dfy ===
/**
 The two ordered scans of the `counts` table: `getRepoCounts` (one user's
 rows, ordered by repo) and `getUserRepoCounts` (every row, ordered by user,
 then repo).

 Each query is specified by a predicate saying what a correct answer is, and
 a uniqueness lemma shows that predicate admits exactly one answer, so the
 ORDER BY fixes the result completely.
 */
module Queries {
  import opened Ordering
  import opened CounterStore
  import opened Sorting

  /** One row of `SELECT repo, count ... WHERE user = ?`. */
  datatype RepoCount = RepoCount(repo: string, count: nat)

  /** One row of `SELECT user, repo, count ...`. */
  datatype UserRepoCount = UserRepoCount(user: string, repo: string, count: nat)
  {
    /** The table's primary key of this row. */
    function KeyOf(): Key
    {
      Key(user, repo)
    }
  }

  /**
   How the row loop of a scan ends. `rows.Next()` returns false both when the
   rows run out and when reading the next row fails; only `rows.Err()` tells
   the two apart. `BrokenAfter(delivered, msg)`: reading the row after the
   first `delivered` ones fails with `msg`. A scan of at most `delivered` rows
   never reaches that row, so it ends normally and `rows.Err()` stays nil; the
   loop fails after min(delivered, total) rows, and breaks off only when that
   is fewer than all of them.
   */
  datatype Iteration = Complete | BrokenAfter(delivered: nat, msg: string)

  /** The row loop over `total` rows breaks off before the last one. */
  predicate Breaks(iter: Iteration, total: nat)
  {
    iter.BrokenAfter? && iter.delivered < total
  }

  /** How many of `total` rows the loop sees before `rows.Next()` returns false. */
  function Delivered(iter: Iteration, total: nat): (n: nat)
    ensures n <= total
    ensures n < total <==> Breaks(iter, total)
  {
    if Breaks(iter, total) then iter.delivered else total
  }

  /** The stored keys of one user: the rows `WHERE user = ?` selects. */
  function UserKeys(db: Store, user: string): set<Key>
  {
    set k | k in db && k.user == user
  }

  /** Strictly ascending repos, as `ORDER BY repo` over the primary key gives them. */
  ghost predicate ReposAscending(rows: seq<RepoCount>)
  {
    forall i, j :: 0 <= i < j < |rows| ==> Less(rows[i].repo, rows[j].repo)
  }

  /**
   `rows` is the answer to the per-user scan: strictly ascending repos, each
   row a stored (repo, count) of `user`, and every stored repo of `user` present.
   */
  ghost predicate IsRepoListing(db: Store, user: string, rows: seq<RepoCount>)
  {
    && ReposAscending(rows)
    && (forall i :: 0 <= i < |rows| ==> Key(user, rows[i].repo) in db && db[Key(user, rows[i].repo)] == rows[i].count)
    && (forall k :: k in db && k.user == user ==> exists i :: 0 <= i < |rows| && rows[i].repo == k.repo)
  }

  /** Rows in strictly ascending (user, repo) order, as `ORDER BY user, repo` over the primary key gives them. */
  ghost predicate SortedRows(rows: seq<UserRepoCount>)
  {
    forall i, j :: 0 <= i < j < |rows| ==> KeyLess(rows[i].KeyOf(), rows[j].KeyOf())
  }

  /**
   `rows` is the answer to the full scan: strictly ascending (user, repo) keys,
   each row a stored entry, and every stored entry present.
   */
  ghost predicate IsFullListing(db: Store, rows: seq<UserRepoCount>)
  {
    && SortedRows(rows)
    && (forall i :: 0 <= i < |rows| ==> rows[i].KeyOf() in db && db[rows[i].KeyOf()] == rows[i].count)
    && (forall k :: k in db ==> exists i :: 0 <= i < |rows| && rows[i].KeyOf() == k)
  }

  /** The keys of a per-user listing, in listing order. */
  function RepoKeys(user: string, rows: seq<RepoCount>): (ks: seq<Key>)
    ensures |ks| == |rows|
    ensures forall i :: 0 <= i < |rows| ==> ks[i] == Key(user, rows[i].repo)
  {
    seq(|rows|, i requires 0 <= i < |rows| => Key(user, rows[i].repo))
  }

  /** The keys of a full listing, in listing order. */
  function FullKeys(rows: seq<UserRepoCount>): (ks: seq<Key>)
    ensures |ks| == |rows|
    ensures forall i :: 0 <= i < |rows| ==> ks[i] == rows[i].KeyOf()
  {
    seq(|rows|, i requires 0 <= i < |rows| => rows[i].KeyOf())
  }

  /** The rows read back for sorted keys of one user: each key's repo with its count. */
  function RepoRows(db: Store, keys: seq<Key>): (rows: seq<RepoCount>)
    requires forall i :: 0 <= i < |keys| ==> keys[i] in db
    ensures |rows| == |keys|
    ensures forall i :: 0 <= i < |keys| ==> rows[i] == RepoCount(keys[i].repo, db[keys[i]])
  {
    seq(|keys|, i requires 0 <= i < |keys| => RepoCount(keys[i].repo, db[keys[i]]))
  }

  /** Reading the sorted keys of one user back from the store gives that user's listing. */
  lemma RepoRowsListing(db: Store, user: string, keys: seq<Key>)
    requires StrictlySorted(keys)
    requires forall k :: k in keys <==> k in db && k.user == user
    ensures forall i :: 0 <= i < |keys| ==> keys[i] in db
    ensures IsRepoListing(db, user, RepoRows(db, keys))
  {
    assert forall i :: 0 <= i < |keys| ==> keys[i] in keys;
    var rows := RepoRows(db, keys);
    assert forall i :: 0 <= i < |keys| ==> keys[i] == Key(user, rows[i].repo);
    forall i, j | 0 <= i < j < |rows|
      ensures Less(rows[i].repo, rows[j].repo)
    {
      LessIrreflexive(user);
    }
    forall k | k in db && k.user == user
      ensures exists i :: 0 <= i < |rows| && rows[i].repo == k.repo
    {
      var i :| 0 <= i < |keys| && keys[i] == k;
      assert rows[i].repo == k.repo;
    }
  }

  /**
   `getRepoCounts(user)`: a failing query returns its error; otherwise the
   listing of `user`'s rows, one per stored repo. An unknown user gives an
   empty listing, not an error. The loop never asks `rows.Err()`, so a row
   loop that breaks off still succeeds, with only the rows read so far.
   */
  method RepoCounts(db: Store, user: string, fault: Fault, iter: Iteration) returns (r: Result<seq<RepoCount>>)
    ensures fault.FailSelect? ==> r == Failure(fault.msg)
    ensures !fault.FailSelect? ==> r.Success?
    ensures !fault.FailSelect? ==> |r.value| == Delivered(iter, |UserKeys(db, user)|)
    ensures !fault.FailSelect? ==> forall full :: IsRepoListing(db, user, full) ==> r.value <= full
    ensures !fault.FailSelect? && !Breaks(iter, |UserKeys(db, user)|) ==> IsRepoListing(db, user, r.value)
  {
    if fault.FailSelect? {
      return Failure(fault.msg);
    }
    var mine := UserKeys(db, user);
    var keys := SortKeys(mine);
    SortedLength(keys, mine);
    RepoRowsListing(db, user, keys);
    var listing := RepoRows(db, keys);
    var n := Delivered(iter, |listing|);
    RepoPrefix(db, user, listing, n);
    return Success(listing[..n]);
  }

  /** The first `n` rows of a per-user listing are a prefix of every answer to that scan. */
  lemma RepoPrefix(db: Store, user: string, listing: seq<RepoCount>, n: nat)
    requires IsRepoListing(db, user, listing) && n <= |listing|
    ensures forall full :: IsRepoListing(db, user, full) ==> listing[..n] <= full
  {
    forall full | IsRepoListing(db, user, full)
      ensures listing[..n] <= full
    {
      RepoListingUnique(db, user, listing, full);
    }
  }

  /**
   `getRepoCounts` with the `rows.Err()` check after the loop: a row loop that
   breaks off before the last row is reported as an error, so every
   successful answer is the whole listing.
   */
  method RepoCountsChecked(db: Store, user: string, fault: Fault, iter: Iteration) returns (r: Result<seq<RepoCount>>)
    ensures fault.FailSelect? ==> r == Failure(fault.msg)
    ensures !fault.FailSelect? && Breaks(iter, |UserKeys(db, user)|) ==> r == Failure(iter.msg)
    ensures r.Success? <==> !fault.FailSelect? && !Breaks(iter, |UserKeys(db, user)|)
    ensures r.Success? ==> IsRepoListing(db, user, r.value)
  {
    r := RepoCounts(db, user, fault, iter);
    if r.Success? && Breaks(iter, |UserKeys(db, user)|) {
      r := Failure(iter.msg);
    }
  }

  /** The rows read back for sorted keys: each key with its count. */
  function FullRows(db: Store, keys: seq<Key>): (rows: seq<UserRepoCount>)
    requires forall i :: 0 <= i < |keys| ==> keys[i] in db
    ensures |rows| == |keys|
    ensures forall i :: 0 <= i < |keys| ==> rows[i] == UserRepoCount(keys[i].user, keys[i].repo, db[keys[i]])
  {
    seq(|keys|, i requires 0 <= i < |keys| => UserRepoCount(keys[i].user, keys[i].repo, db[keys[i]]))
  }

  /** Reading every sorted key back from the store gives the full listing. */
  lemma FullRowsListing(db: Store, keys: seq<Key>)
    requires StrictlySorted(keys)
    requires forall k :: k in keys <==> k in db
    ensures forall i :: 0 <= i < |keys| ==> keys[i] in db
    ensures IsFullListing(db, FullRows(db, keys))
  {
    assert forall i :: 0 <= i < |keys| ==> keys[i] in keys;
    var rows := FullRows(db, keys);
    assert forall i :: 0 <= i < |keys| ==> keys[i] == rows[i].KeyOf();
    forall k | k in db
      ensures exists i :: 0 <= i < |rows| && rows[i].KeyOf() == k
    {
      var i :| 0 <= i < |keys| && keys[i] == k;
      assert rows[i].KeyOf() == k;
    }
  }

  /**
   `getUserRepoCounts()`: a failing query returns its error; otherwise every
   stored entry exactly once, in ascending (user, repo) order. As in
   `getRepoCounts`, a row loop that breaks off still succeeds, with a prefix.
   */
  method UserRepoCounts(db: Store, fault: Fault, iter: Iteration) returns (r: Result<seq<UserRepoCount>>)
    ensures fault.FailSelect? ==> r == Failure(fault.msg)
    ensures !fault.FailSelect? ==> r.Success?
    ensures !fault.FailSelect? ==> |r.value| == Delivered(iter, |db|)
    ensures !fault.FailSelect? ==> forall full :: IsFullListing(db, full) ==> r.value <= full
    ensures !fault.FailSelect? && !Breaks(iter, |db|) ==> IsFullListing(db, r.value)
  {
    if fault.FailSelect? {
      return Failure(fault.msg);
    }
    var keys := SortKeys(db.Keys);
    SortedLength(keys, db.Keys);
    FullRowsListing(db, keys);
    var listing := FullRows(db, keys);
    var n := Delivered(iter, |listing|);
    FullPrefix(db, listing, n);
    return Success(listing[..n]);
  }

  /** The first `n` rows of a full listing are a prefix of every answer to the full scan. */
  lemma FullPrefix(db: Store, listing: seq<UserRepoCount>, n: nat)
    requires IsFullListing(db, listing) && n <= |listing|
    ensures forall full :: IsFullListing(db, full) ==> listing[..n] <= full
  {
    forall full | IsFullListing(db, full)
      ensures listing[..n] <= full
    {
      FullListingUnique(db, listing, full);
    }
  }

  /**
   `getUserRepoCounts` with the `rows.Err()` check after the loop: every
   successful answer is the whole listing.
   */
  method UserRepoCountsChecked(db: Store, fault: Fault, iter: Iteration) returns (r: Result<seq<UserRepoCount>>)
    ensures fault.FailSelect? ==> r == Failure(fault.msg)
    ensures !fault.FailSelect? && Breaks(iter, |db|) ==> r == Failure(iter.msg)
    ensures r.Success? <==> !fault.FailSelect? && !Breaks(iter, |db|)
    ensures r.Success? ==> IsFullListing(db, r.value)
  {
    r := UserRepoCounts(db, fault, iter);
    if r.Success? && Breaks(iter, |db|) {
      r := Failure(iter.msg);
    }
  }

  /** Every repo of one per-user listing is in any other. */
  lemma RepoKeysIncluded(db: Store, user: string, a: seq<RepoCount>, b: seq<RepoCount>)
    requires IsRepoListing(db, user, a) && IsRepoListing(db, user, b)
    ensures forall k :: k in RepoKeys(user, a) ==> k in RepoKeys(user, b)
  {
    var ka, kb := RepoKeys(user, a), RepoKeys(user, b);
    forall k | k in ka
      ensures k in kb
    {
      var i :| 0 <= i < |ka| && ka[i] == k;
      var j :| 0 <= j < |b| && b[j].repo == k.repo;
      assert kb[j] == k;
    }
  }

  lemma RepoKeysSorted(user: string, a: seq<RepoCount>)
    requires ReposAscending(a)
    ensures StrictlySorted(RepoKeys(user, a))
  {
    LessIrreflexive(user);
  }

  /** Two listings with the same repos in the same order are the same listing. */
  lemma SameRepoKeys(db: Store, user: string, a: seq<RepoCount>, b: seq<RepoCount>)
    requires IsRepoListing(db, user, a) && IsRepoListing(db, user, b)
    requires RepoKeys(user, a) == RepoKeys(user, b)
    ensures a == b
  {
    forall i | 0 <= i < |a|
      ensures a[i] == b[i]
    {
      assert RepoKeys(user, a)[i] == RepoKeys(user, b)[i];
    }
  }

  /** The per-user scan has exactly one correct answer. */
  lemma RepoListingUnique(db: Store, user: string, a: seq<RepoCount>, b: seq<RepoCount>)
    requires IsRepoListing(db, user, a) && IsRepoListing(db, user, b)
    ensures a == b
  {
    RepoKeysIncluded(db, user, a, b);
    RepoKeysIncluded(db, user, b, a);
    RepoKeysSorted(user, a);
    RepoKeysSorted(user, b);
    SortedUnique(RepoKeys(user, a), RepoKeys(user, b));
    SameRepoKeys(db, user, a, b);
  }

  /** Every key of one full listing is in any other. */
  lemma FullKeysIncluded(db: Store, a: seq<UserRepoCount>, b: seq<UserRepoCount>)
    requires IsFullListing(db, a) && IsFullListing(db, b)
    ensures forall k :: k in FullKeys(a) ==> k in FullKeys(b)
  {
    var ka, kb := FullKeys(a), FullKeys(b);
    forall k | k in ka
      ensures k in kb
    {
      var i :| 0 <= i < |ka| && ka[i] == k;
      var j :| 0 <= j < |b| && b[j].KeyOf() == k;
      assert kb[j] == k;
    }
  }

  /** Two full listings with the same keys in the same order are the same listing. */
  lemma SameFullKeys(db: Store, a: seq<UserRepoCount>, b: seq<UserRepoCount>)
    requires IsFullListing(db, a) && IsFullListing(db, b)
    requires FullKeys(a) == FullKeys(b)
    ensures a == b
  {
    forall i | 0 <= i < |a|
      ensures a[i] == b[i]
    {
      assert FullKeys(a)[i] == FullKeys(b)[i];
    }
  }

  /** The full scan has exactly one correct answer. */
  lemma FullListingUnique(db: Store, a: seq<UserRepoCount>, b: seq<UserRepoCount>)
    requires IsFullListing(db, a) && IsFullListing(db, b)
    ensures a == b
  {
    FullKeysIncluded(db, a, b);
    FullKeysIncluded(db, b, a);
    SortedUnique(FullKeys(a), FullKeys(b));
    SameFullKeys(db, a, b);
  }

  /** A per-user listing has one row per stored repo of the user. */
  lemma RepoListingLength(db: Store, user: string, rows: seq<RepoCount>)
    requires IsRepoListing(db, user, rows)
    ensures |rows| == |UserKeys(db, user)|
  {
    var ks := RepoKeys(user, rows);
    RepoKeysSorted(user, rows);
    forall k
      ensures k in ks <==> k in db && k.user == user
    {
      if k in db && k.user == user {
        var i :| 0 <= i < |rows| && rows[i].repo == k.repo;
        assert ks[i] == k;
      }
    }
    SortedLength(ks, UserKeys(db, user));
  }

  /** A user with no stored row has the empty listing. */
  lemma UnknownUserEmpty(db: Store, user: string, rows: seq<RepoCount>)
    requires IsRepoListing(db, user, rows)
    requires forall k :: k in db ==> k.user != user
    ensures rows == []
  {
    RepoListingLength(db, user, rows);
    assert UserKeys(db, user) == {};
  }

  /** A full listing has one row per stored entry. */
  lemma FullListingLength(db: Store, rows: seq<UserRepoCount>)
    requires IsFullListing(db, rows)
    ensures |rows| == |db|
  {
    var ks := FullKeys(rows);
    forall k
      ensures k in ks <==> k in db.Keys
    {
      if k in db {
        var i :| 0 <= i < |rows| && rows[i].KeyOf() == k;
        assert ks[i] == k;
      }
    }
    SortedLength(ks, db.Keys);
  }

  /**
   In the full listing, a row of a smaller user comes before every row of a
   larger one: each user's rows form one block, and the blocks are in user order.
   */
  lemma UserBlocksOrdered(db: Store, rows: seq<UserRepoCount>, i: nat, j: nat)
    requires IsFullListing(db, rows)
    requires i < |rows| && j < |rows|
    requires Less(rows[i].user, rows[j].user)
    ensures i < j
  {
    if j == i {
      LessIrreflexive(rows[i].user);
    } else if j < i {
      assert KeyLess(rows[j].KeyOf(), rows[i].KeyOf());
      LessIrreflexive(rows[i].user);
      LessAsymmetric(rows[i].user, rows[j].user);
    }
  }
}

=== FILE: routes.dfy ===
/**
 The path-segment pattern the router puts on `{user}` and `{repo}`.

 Every route registers the segments with the character class `[A-ZA-z0-9_.-]+`.
 The second range runs from 'A' to 'z' and so also admits the six characters
 between 'Z' and 'a': '[', '\', ']', '^', '_' and '`'. The class evidently
 meant is `[A-Za-z0-9_.-]+`: the first range already covers the capitals, so
 the second one only makes sense as the lower-case range. The difference
 matters because the JSON bodies copy the names between double quotes
 without escaping them. The store and the bodies are stated for the class as
 written; the intended class appears only in the JSON-safety property.
 */
module Routes {

  /** One character of the class as the routes write it. */
  predicate SegmentCharAsWritten(c: char)
  {
    ('A' <= c <= 'Z') || ('A' <= c <= 'z') || ('0' <= c <= '9') || c == '_' || c == '.' || c == '-'
  }

  /** One character of the evidently intended class `[A-Za-z0-9_.-]`. */
  predicate SegmentChar(c: char)
  {
    ('A' <= c <= 'Z') || ('a' <= c <= 'z') || ('0' <= c <= '9') || c == '_' || c == '.' || c == '-'
  }

  /** A path segment the route pattern as written accepts (the `+` makes it non-empty). */
  predicate ValidSegmentAsWritten(s: string)
  {
    |s| > 0 && forall i :: 0 <= i < |s| ==> SegmentCharAsWritten(s[i])
  }

  /** A path segment the intended pattern accepts. */
  predicate ValidSegment(s: string)
  {
    |s| > 0 && forall i :: 0 <= i < |s| ==> SegmentChar(s[i])
  }

  /**
   A string that may stand between double quotes in a JSON document as it is:
   no quote, no backslash, no control character (section 7 of RFC 8259).
   */
  predicate JsonSafe(s: string)
  {
    forall i :: 0 <= i < |s| ==> s[i] != '"' && s[i] != '\\' && s[i] >= ' '
  }

  /** No curly brace, so a name cannot unbalance the braces of a body. */
  predicate BraceFree(s: string)
  {
    forall i :: 0 <= i < |s| ==> s[i] != '{' && s[i] != '}'
  }

  /** The pattern as written lets through a name that breaks the JSON string it is copied into. */
  lemma AsWrittenAdmitsBackslash()
    ensures ValidSegmentAsWritten("\\") && !JsonSafe("\\")
    ensures ValidSegmentAsWritten("a\\q")
  {
    assert ("\\")[0] == '\\';
  }

  /** The intended pattern admits only names that are JSON-safe and brace-free. */
  lemma ValidSegmentIsJsonSafe(s: string)
    requires ValidSegment(s)
    ensures |s| > 0 && JsonSafe(s) && BraceFree(s)
  {
  }

  /** Even as written, no brace gets through ('{' and '}' lie above 'z'). */
  lemma AsWrittenIsBraceFree(s: string)
    requires ValidSegmentAsWritten(s)
    ensures |s| > 0 && BraceFree(s)
  {
  }
}

=== FILE: scenarios.dfy ===
/**
 What the model yields on concrete tables: the first write, three hits on
 one badge, the per-user listing of repos inserted out of order, an unknown
 user, the global listing of two users, and scans whose row loop breaks off.
 */
module Scenarios {
  import opened Ordering
  import opened CounterStore
  import opened Queries
  import Badge

  /** On a fresh table the first hit returns 1, and a read before any hit returns 0. */
  lemma FirstWrite()
    ensures IncrCount(Empty, "alice", "proj", NoFault).1 == Success(1)
    ensures GetCount(Empty, "alice", "proj", NoFault) == Success(0)
    ensures GetCount(IncrCount(Empty, "alice", "proj", NoFault).0, "alice", "proj", NoFault) == Success(1)
  {
  }

  /** Three hits on ("octo", "hello-world"): the count reads back as 3 and the badge shows "3" at default size. */
  lemma OctoThreeHits()
    ensures var db := IncrTimes(Empty, Key("octo", "hello-world"), 3);
            GetCount(db, "octo", "hello-world", NoFault) == Success(3)
    ensures IncrCount(IncrTimes(Empty, Key("octo", "hello-world"), 2), "octo", "hello-world", NoFault).1 == Success(3)
    ensures Badge.CreateSvg(3) == Badge.Badge("3", 80, 50, 55)
  {
    var key := Key("octo", "hello-world");
    IncrFromFresh(Empty, key, 3);
    IncrTimesCount(Empty, key, 2);
    assert Badge.CreateSvg(3).text == "3";
  }

  /** The table after hits on bob's repos "zeta", "alpha" and "mid", in that order. */
  function BobStore(): Store
  {
    Incr(Incr(Incr(Empty, Key("bob", "zeta")), Key("bob", "alpha")), Key("bob", "mid"))
  }

  lemma BobStoreContents()
    ensures BobStore() == map[Key("bob", "zeta") := 1, Key("bob", "alpha") := 1, Key("bob", "mid") := 1]
  {
  }

  lemma BobListing()
    ensures IsRepoListing(BobStore(), "bob", [RepoCount("alpha", 1), RepoCount("mid", 1), RepoCount("zeta", 1)])
  {
    BobStoreContents();
    var rows := [RepoCount("alpha", 1), RepoCount("mid", 1), RepoCount("zeta", 1)];
    assert Less("alpha", "mid") && Less("mid", "zeta") && Less("alpha", "zeta");
    assert rows[0].repo == "alpha" && rows[1].repo == "mid" && rows[2].repo == "zeta";
  }

  /** Repos inserted as zeta, alpha, mid are listed as alpha, mid, zeta. */
  method BobOrdering() returns (r: Result<seq<RepoCount>>)
    ensures r == Success([RepoCount("alpha", 1), RepoCount("mid", 1), RepoCount("zeta", 1)])
  {
    r := RepoCounts(BobStore(), "bob", NoFault, Complete);
    BobListing();
    RepoListingUnique(BobStore(), "bob", r.value, [RepoCount("alpha", 1), RepoCount("mid", 1), RepoCount("zeta", 1)]);
  }

  /** A user nobody has hit gets an empty listing, not an error. */
  method NobodyListing() returns (r: Result<seq<RepoCount>>)
    ensures r == Success([])
  {
    r := RepoCounts(BobStore(), "nobody", NoFault, Complete);
    BobStoreContents();
    UnknownUserEmpty(BobStore(), "nobody", r.value);
  }

  /** The table after a hit on ("bob", "x") and then one on ("alice", "y"). */
  function TwoUserStore(): Store
  {
    Incr(Incr(Empty, Key("bob", "x")), Key("alice", "y"))
  }

  lemma TwoUserListing()
    ensures IsFullListing(TwoUserStore(), [UserRepoCount("alice", "y", 1), UserRepoCount("bob", "x", 1)])
  {
    assert TwoUserStore() == map[Key("bob", "x") := 1, Key("alice", "y") := 1];
    assert Less("alice", "bob");
    var rows := [UserRepoCount("alice", "y", 1), UserRepoCount("bob", "x", 1)];
    assert rows[0].KeyOf() == Key("alice", "y") && rows[1].KeyOf() == Key("bob", "x");
  }

  /** alice's rows come before bob's, whatever order the hits came in. */
  method GlobalOrdering() returns (r: Result<seq<UserRepoCount>>)
    ensures r == Success([UserRepoCount("alice", "y", 1), UserRepoCount("bob", "x", 1)])
  {
    r := UserRepoCounts(TwoUserStore(), NoFault, Complete);
    TwoUserListing();
    FullListingUnique(TwoUserStore(), r.value, [UserRepoCount("alice", "y", 1), UserRepoCount("bob", "x", 1)]);
  }

  /** The full listing of the empty table is empty. */
  method EmptyGlobalListing() returns (r: Result<seq<UserRepoCount>>)
    ensures r == Success([])
  {
    r := UserRepoCounts(Empty, NoFault, Complete);
  }

  /** A one-element prefix of a sequence is its first element. */
  lemma PrefixOfOne<T>(v: seq<T>, full: seq<T>)
    requires v <= full && |v| == 1
    ensures v == [full[0]]
  {
    assert v == full[..1];
  }

  /** bob has three stored repos. */
  lemma BobSize()
    ensures |UserKeys(BobStore(), "bob")| == 3
  {
    BobListing();
    RepoListingLength(BobStore(), "bob", [RepoCount("alpha", 1), RepoCount("mid", 1), RepoCount("zeta", 1)]);
  }

  lemma TwoUserContents()
    ensures TwoUserStore() == map[Key("bob", "x") := 1, Key("alice", "y") := 1]
  {
  }

  /** The two-user table holds two rows. */
  lemma TwoUserSize()
    ensures |TwoUserStore()| == 2
  {
    TwoUserListing();
    FullListingLength(TwoUserStore(), [UserRepoCount("alice", "y", 1), UserRepoCount("bob", "x", 1)]);
  }

  /**
   A per-user scan whose row loop breaks off after one row: the code answers
   with success and a single repo although bob has three stored repos.
   */
  method BrokenBobListing() returns (r: Result<seq<RepoCount>>)
    ensures r == Success([RepoCount("alpha", 1)])
    ensures Key("bob", "mid") in BobStore() && Key("bob", "zeta") in BobStore()
  {
    r := RepoCounts(BobStore(), "bob", NoFault, BrokenAfter(1, "disk I/O error"));
    BobSize();
    BobListing();
    PrefixOfOne(r.value, [RepoCount("alpha", 1), RepoCount("mid", 1), RepoCount("zeta", 1)]);
    BobStoreContents();
  }

  /** With the `rows.Err()` check, the same broken scan reports its error. */
  method CheckedBobListing() returns (r: Result<seq<RepoCount>>)
    ensures r == Failure("disk I/O error")
  {
    BobSize();
    r := RepoCountsChecked(BobStore(), "bob", NoFault, BrokenAfter(1, "disk I/O error"));
  }

  /**
   A read error due only after the fifth row never arises on a two-row table:
   even with the `rows.Err()` check the full scan succeeds with both rows.
   */
  method CheckedShortScan() returns (r: Result<seq<UserRepoCount>>)
    ensures r == Success([UserRepoCount("alice", "y", 1), UserRepoCount("bob", "x", 1)])
  {
    var db := TwoUserStore();
    var full := [UserRepoCount("alice", "y", 1), UserRepoCount("bob", "x", 1)];
    TwoUserSize();
    TwoUserListing();
    r := UserRepoCountsChecked(db, NoFault, BrokenAfter(5, "disk I/O error"));
    FullListingUnique(db, r.value, full);
  }

  /** A full scan breaking off after one row: success, with bob's row missing. */
  method BrokenGlobalListing() returns (r: Result<seq<UserRepoCount>>)
    ensures r == Success([UserRepoCount("alice", "y", 1)])
    ensures Key("bob", "x") in TwoUserStore()
  {
    var db := TwoUserStore();
    var full := [UserRepoCount("alice", "y", 1), UserRepoCount("bob", "x", 1)];
    TwoUserSize();
    TwoUserListing();
    r := UserRepoCounts(db, NoFault, BrokenAfter(1, "disk I/O error"));
    assert r.value <= full;
    PrefixOfOne(r.value, full);
    TwoUserContents();
  }
}

=== FILE: seqs.dfy ===
/** Small facts about sequence concatenation, stated once and used by the body proofs. */
module Seqs {

  lemma Assoc<T>(a: seq<T>, b: seq<T>, c: seq<T>)
    ensures (a + b) + c == a + (b + c)
  {
  }

  /** The head and the tail of a concatenation whose left part is non-empty. */
  lemma ConsSplit<T>(a: seq<T>, b: seq<T>)
    requires a != []
    ensures (a + b)[0] == a[0] && (a + b)[1..] == a[1..] + b
  {
  }
}

=== FILE: sorting.dfy ===
/**
 Strictly ascending sequences of keys: what an `ORDER BY user, repo` scan over
 a table with primary key (user, repo) returns.
 */
module Sorting {
  import opened CounterStore

  /** Every earlier key is below every later one, so no key occurs twice. */
  predicate StrictlySorted(s: seq<Key>)
  {
    forall i, j :: 0 <= i < j < |s| ==> KeyLess(s[i], s[j])
  }

  /** Insert a key that is not yet present into a strictly sorted sequence. */
  function Insert(s: seq<Key>, k: Key): (r: seq<Key>)
    requires StrictlySorted(s) && k !in s
    ensures StrictlySorted(r)
    ensures forall x :: x in r <==> x in s || x == k
    ensures |r| == |s| + 1
    decreases |s|
  {
    if s == [] then [k]
    else if KeyLess(k, s[0]) then
      assert forall j :: 0 < j < |s| ==> KeyLess(k, s[j]) by {
        forall j | 0 < j < |s| {
          KeyLessTransitive(k, s[0], s[j]);
        }
      }
      [k] + s
    else
      KeyLessTotal(k, s[0]);
      var rest := Insert(s[1..], k);
      assert forall x :: x in rest ==> KeyLess(s[0], x) by {
        forall x | x in rest
          ensures KeyLess(s[0], x)
        {
          if x != k {
            var j :| 0 <= j < |s[1..]| && s[1..][j] == x;
            assert s[j + 1] == x;
          }
        }
      }
      [s[0]] + rest
  }

  /** Sort a finite set of keys into its one strictly ascending enumeration. */
  method SortKeys(ks: set<Key>) returns (s: seq<Key>)
    ensures StrictlySorted(s)
    ensures forall k :: k in s <==> k in ks
  {
    s := [];
    var rest := ks;
    while rest != {}
      invariant StrictlySorted(s)
      invariant rest <= ks
      invariant forall k :: k in s <==> k in ks && k !in rest
      decreases rest
    {
      var k :| k in rest;
      s := Insert(s, k);
      rest := rest - {k};
    }
  }

  /** A strictly sorted sequence is determined by its elements. */
  lemma {:induction false} SortedUnique(a: seq<Key>, b: seq<Key>)
    requires StrictlySorted(a) && StrictlySorted(b)
    requires forall k :: k in a <==> k in b
    ensures a == b
    decreases |a|
  {
    if a != [] && b != [] {
      if a[0] != b[0] {
        // Each head is in the other sequence, hence above the other head.
        assert a[0] in b && b[0] in a;
        var i :| 0 <= i < |b| && b[i] == a[0];
        var j :| 0 <= j < |a| && a[j] == b[0];
        assert KeyLess(b[0], a[0]) by { assert i != 0; }
        assert KeyLess(a[0], b[0]) by { assert j != 0; }
        KeyLessAsymmetric(a[0], b[0]);
        assert false;
      }
      assert forall k :: k in a[1..] <==> k in b[1..] by {
        forall k
          ensures k in a[1..] <==> k in b[1..]
        {
          if k in a[1..] {
            var i :| 1 <= i < |a| && a[i] == k;
            KeyLessIrreflexive(k);
            assert k != a[0];
            assert k in b;
          }
          if k in b[1..] {
            var i :| 1 <= i < |b| && b[i] == k;
            KeyLessIrreflexive(k);
            assert k != b[0];
            assert k in a;
          }
        }
      }
      SortedUnique(a[1..], b[1..]);
      assert a == [a[0]] + a[1..] && b == [b[0]] + b[1..];
    } else {
      // One is empty, and both have one entry per element of the same set.
      var ks := set k | k in a;
      SortedLength(a, ks);
      SortedLength(b, ks);
    }
  }

  /** A strictly sorted sequence of the keys of `ks` has exactly one entry per key. */
  lemma {:induction false} SortedLength(s: seq<Key>, ks: set<Key>)
    requires StrictlySorted(s)
    requires forall k :: k in s <==> k in ks
    ensures |s| == |ks|
    decreases |s|
  {
    if s != [] {
      assert s[0] !in s[1..] by {
        if s[0] in s[1..] {
          var i :| 1 <= i < |s| && s[i] == s[0];
          KeyLessIrreflexive(s[0]);
        }
      }
      assert forall k :: k in s[1..] <==> k in ks - {s[0]} by {
        forall k
          ensures k in s[1..] <==> k in ks - {s[0]}
        {
          if k in ks - {s[0]} {
            assert k in s;
            var i :| 0 <= i < |s| && s[i] == k;
            assert i != 0;
            assert s[1..][i - 1] == k;
          }
        }
      }
      SortedLength(s[1..], ks - {s[0]});
    } else {
      assert forall k :: k !in ks;
      assert ks == {};
    }
  }
}

=== FILE: store.dfy ===
/**
 The counter store: the `counts` table, keyed by (user, repo), and the two
 operations that touch a single row, `incrCount` and `getCount`.

 The SQLite table becomes an immutable map; an operation that writes returns
 the new map. A storage failure is an input of the operation (a `Fault`), since
 the model cannot see the database driver.
 */
module CounterStore {
  import opened Ordering
  import opened Routes

  /** The composite primary key of the `counts` table. */
  datatype Key = Key(user: string, repo: string)

  /** One count per key: the primary key makes the table a finite map. */
  type Store = map<Key, nat>

  /** Which SQL statement of a call fails, if any, and with what message. */
  datatype Fault = NoFault | FailSelect(msg: string) | FailWrite(msg: string)

  /** The value or the error a Go `(int, error)` pair carries. */
  datatype Result<T> = Success(value: T) | Failure(error: string)

  /** Lexicographic order on (user, repo): user first, repo second. */
  predicate KeyLess(a: Key, b: Key)
  {
    Less(a.user, b.user) || (a.user == b.user && Less(a.repo, b.repo))
  }

  lemma KeyLessIrreflexive(a: Key)
    ensures !KeyLess(a, a)
  {
    LessIrreflexive(a.user);
    LessIrreflexive(a.repo);
  }

  lemma KeyLessTransitive(a: Key, b: Key, c: Key)
    requires KeyLess(a, b) && KeyLess(b, c)
    ensures KeyLess(a, c)
  {
    if Less(a.user, b.user) && Less(b.user, c.user) {
      LessTransitive(a.user, b.user, c.user);
    } else if a.user == b.user && b.user == c.user {
      LessTransitive(a.repo, b.repo, c.repo);
    }
  }

  lemma KeyLessTotal(a: Key, b: Key)
    requires a != b
    ensures KeyLess(a, b) || KeyLess(b, a)
  {
    if a.user != b.user {
      LessTotal(a.user, b.user);
    } else {
      LessTotal(a.repo, b.repo);
    }
  }

  lemma KeyLessAsymmetric(a: Key, b: Key)
    requires KeyLess(a, b)
    ensures !KeyLess(b, a)
  {
    if KeyLess(b, a) {
      KeyLessTransitive(a, b, a);
      KeyLessIrreflexive(a);
    }
  }

  /** The freshly created table holds no rows. */
  const Empty: Store := map[]

  /**
   `getCount`: the stored count of (user, repo), or 0 when no row exists.
   A read issues no write, so a `FailWrite` fault does not affect it.
   */
  function GetCount(db: Store, user: string, repo: string, fault: Fault): (r: Result<nat>)
    ensures fault.FailSelect? ==> r == Failure(fault.msg)
    ensures !fault.FailSelect? && Key(user, repo) !in db ==> r == Success(0)
    ensures !fault.FailSelect? && Key(user, repo) in db ==> r == Success(db[Key(user, repo)])
    ensures !fault.FailSelect? ==> r == Success(Count(db, Key(user, repo)))
  {
    var key := Key(user, repo);
    if fault.FailSelect? then Failure(fault.msg)
    else if key in db then Success(db[key])
    else Success(0)
  }

  /** The fault-free read, used to state the store's properties. */
  function Count(db: Store, key: Key): nat
  {
    if key in db then db[key] else 0
  }

  /**
   `incrCount`: select the current count (0 when the row is missing), then
   insert the row with 1 or add 1 to it, and return the selected count plus 1.
   On a failing statement the store is left as it was and the error returned.
   */
  function IncrCount(db: Store, user: string, repo: string, fault: Fault): (r: (Store, Result<nat>))
    ensures fault.NoFault? ==> r.1 == Success(Count(db, Key(user, repo)) + 1)
    ensures fault.NoFault? ==> Key(user, repo) in r.0 && r.0[Key(user, repo)] == Count(db, Key(user, repo)) + 1
    ensures fault.NoFault? ==> r.0.Keys == db.Keys + {Key(user, repo)}
    ensures fault.NoFault? ==> forall k :: k in db && k != Key(user, repo) ==> k in r.0 && r.0[k] == db[k]
    ensures !fault.NoFault? ==> r.0 == db && r.1 == Failure(fault.msg)
  {
    var key := Key(user, repo);
    var count := if key in db then db[key] else 0;
    match fault
    case FailSelect(msg) => (db, Failure(msg))
    case FailWrite(msg) => (db, Failure(msg))
    case NoFault =>
      var db' := if key in db then db[key := db[key] + 1] else db[key := 1];
      (db', Success(count + 1))
  }

  /** The store after a fault-free `incrCount`. */
  function Incr(db: Store, key: Key): Store
  {
    IncrCount(db, key.user, key.repo, NoFault).0
  }

  /** The store after a fault-free `incrCount` on `key`, `n` times in a row. */
  function IncrTimes(db: Store, key: Key, n: nat): Store
  {
    if n == 0 then db else Incr(IncrTimes(db, key, n - 1), key)
  }

  /** Key isolation: incrementing one key leaves the count of every other key as it was. */
  lemma IncrIsolation(db: Store, key: Key, other: Key, fault: Fault)
    requires other != key
    ensures GetCount(IncrCount(db, key.user, key.repo, fault).0, other.user, other.repo, NoFault)
         == GetCount(db, other.user, other.repo, NoFault)
  {
  }

  /** Monotonicity: no row is removed and no count decreases. */
  lemma IncrMonotonic(db: Store, key: Key, fault: Fault)
    ensures var db' := IncrCount(db, key.user, key.repo, fault).0;
            db.Keys <= db'.Keys && forall k :: k in db ==> db[k] <= db'[k]
  {
  }

  /** No lost updates: `n` increments from any store raise the count by exactly `n`. */
  lemma {:induction false} IncrTimesCount(db: Store, key: Key, n: nat)
    ensures Count(IncrTimes(db, key, n), key) == Count(db, key) + n
    ensures forall k :: k != key ==> Count(IncrTimes(db, key, n), k) == Count(db, k)
  {
    if n > 0 {
      var before := IncrTimes(db, key, n - 1);
      IncrTimesCount(db, key, n - 1);
      IncrStep(before, key);
      assert IncrTimes(db, key, n) == Incr(before, key);
    }
  }

  /** One fault-free increment, read back: the key gains 1 and no other key changes. */
  lemma IncrStep(db: Store, key: Key)
    ensures Count(Incr(db, key), key) == Count(db, key) + 1
    ensures forall k :: k != key ==> Count(Incr(db, key), k) == Count(db, k)
  {
  }

  /** From a key never seen, `n` increments make `getCount` return `n`. */
  lemma IncrFromFresh(db: Store, key: Key, n: nat)
    requires key !in db
    ensures GetCount(IncrTimes(db, key, n), key.user, key.repo, NoFault) == Success(n)
  {
    IncrTimesCount(db, key, n);
  }

  /** Every row holds a count of at least 1, under names the routes as written let through. */
  predicate ValidStore(db: Store)
  {
    forall k :: k in db ==> db[k] >= 1 && ValidSegmentAsWritten(k.user) && ValidSegmentAsWritten(k.repo)
  }

  /** The store invariant holds of the empty table and survives every call. */
  lemma IncrKeepsValid(db: Store, user: string, repo: string, fault: Fault)
    requires ValidStore(db)
    requires ValidSegmentAsWritten(user) && ValidSegmentAsWritten(repo)
    ensures ValidStore(IncrCount(db, user, repo, fault).0)
    ensures ValidStore(Empty)
  {
  }
}
